=== FILE: README.md ===
# disscli — a Dafny model of the hook registry, the message log and the release arithmetic

`disscli` is a command-line tool. It posts messages to Discord through
webhooks, and it keeps two tables in a local SQLite file:

- `hooks` holds named webhook URLs. At most one of them is flagged as the default.
- `messages` holds every delivered message, with the `@`-mentions found in it.

A release script bumps the package version in `setup.py`.

This project models those parts as pure functions over immutable values:

- **Common** (`common.dfy`): `Option` and `Result`.
- **Text** (`text.dfy`): the Python string functions the tool relies on.
  - `str.split()` splits on runs of Python whitespace.
  - `str.split(sep)` and `sep.join(...)` work with a one-character separator.
  - The code-point order on strings, and the least string of a set.
- **Hooks** (`hooks.dfy`): the hook table, as a map from name to `(url, isDefault)`.
  - `add_hook`, `delete_hook`, `set_default_hook`, `get_default_hook`, `get_hook_url` and `list_hooks`.
  - The invariant that there is at most one default, and exactly one whenever a hook exists. It is proved to hold after any sequence of hook commands that starts from the empty table.
- **Messages** (`messages.dfy`): the message table, as a sequence of rows in insertion order.
  - Mention extraction, and the comma-joined storage of mentions.
  - `save_message`, `list_messages`, `delete_logs` and `list_users`.
  - The status-204 gate of `send_message`.
- **Cli** (`cli.dfy`): the command-line front end.
  - Alias expansion of the first argument.
  - The choice between running a subcommand and sending the arguments as a message.
  - The send path: it resolves the default hook's URL before delivering.
- **Release** (`release.dfy`): `get_current_version` and `update_version`.
  - Versions are split at dots and each field is read as Python's `int()` reads an ASCII field, with no digit limit. Around the sign and digits, `int()` skips only space, tab, line feed, vertical tab, form feed, carriage return and non-ASCII whitespace. It does not skip the separators U+001C to U+001F, although `str.isspace` accepts them. Versions are then bumped.
  - They are rendered as `"{M}.{m}.{p}"`.
  - Every `version="..."` in the text of `setup.py` is rewritten, with the left-to-right scan of `re.sub`. `re.search` is modelled as the leftmost match.

Failures are `Result.Failure` values. Where the tool prints an error and
returns without touching the database, the model's callers keep the old
state (`Hooks.Apply`).

Some behaviour is left to SQLite by the tool, in two places:

- the order of `SELECT name, is_default FROM hooks`;
- which row `SELECT name FROM hooks LIMIT 1` returns when the default hook is deleted.

For the `LIMIT 1` query the model takes the least name in code-point order.
That is the row SQLite's scan of the covering index on the primary key
`hooks.name` yields first. Every property below holds for whichever remaining
hook is chosen, because the contracts only say "a remaining hook".

The listing needs `is_default`, which that index does not hold, so SQLite
reads it from the table itself, in insertion order. The model lists the hooks
in code-point order of their names instead. This is a modelling choice: the
registry is a map and keeps no insertion order.

Mentions are stored as one comma-joined string per message:

- `list_messages` returns the stored comma-joined string as it is. It does not return a list of mentions.
- `list_users` splits every stored string at commas, into one unordered set.

`Messages.CommaInMentionSplitsUser` shows the
consequence: a mention containing a comma comes back as two users.

## Model

| member | source | states |
|---|---|---|
| `Hooks.AddHook` | disscli/main.py:98-115 | An existing name fails with `DuplicateName` and no change. Otherwise exactly that name is added, with its URL. The new hook is the default iff the table was empty. Every other hook is unchanged. |
| `Hooks.AddHookKeepsSingleDefault` | disscli/main.py:106-112 | Adding keeps the single-default invariant. The first hook becomes the default (`get_default_hook` returns it), and a later hook leaves the default where it was. |
| `Hooks.DeleteHook` | disscli/main.py:118-140 | An unknown name fails with `NotFound`. Otherwise exactly that name is removed and the remaining URLs are kept. Deleting a non-default hook changes no other row. Deleting the default, with hooks left, flags one remaining hook and changes nothing else. |
| `Hooks.Successor` | disscli/main.py:132-135 | The hook that takes over the default flag is one of the remaining hooks. |
| `Hooks.DeleteNonDefaultKeepsDefault` | disscli/main.py:128-140 | Deleting a non-default hook keeps the same set of defaults and the same `get_default_hook`. Afterwards `get_hook_url` of the name is None. |
| `Hooks.DeleteDefaultPassesFlag` | disscli/main.py:131-138 | Deleting the only hook leaves an empty table with no default. Deleting the default among several leaves exactly one default, and it is another hook. |
| `Hooks.DeleteHookKeepsSingleDefault` | disscli/main.py:118-140 | Deleting keeps the single-default invariant. |
| `Hooks.SetDefaultHook` | disscli/main.py:153-163 | An unknown name fails with `NotFound`. Otherwise names and URLs are unchanged, and the named hook is the one and only default. |
| `Hooks.SetDefaultHookKeepsSingleDefault` | disscli/main.py:153-163 | After `set_default_hook(name)`, `get_default_hook` returns the name and the invariant holds, whatever the table was before. For an unknown name the command leaves the table as it was. |
| `Hooks.SetDefaultSurvivesOtherDelete` | disscli/main.py:118-163 | Making one hook the default and then deleting a different hook leaves the first one the default. |
| `Hooks.GetDefaultHook` | disscli/main.py:166-171 | None iff no hook is flagged. Otherwise the result is a flagged hook. |
| `Hooks.GetDefaultHookIsTheDefault` | disscli/main.py:166-171 | Under the invariant, there is a default iff the table is non-empty, and the result is exactly the flagged hook. |
| `Hooks.GetHookUrl` | disscli/main.py:174-179 | Some iff the name is registered, and then it is that hook's URL. |
| `Hooks.ListHooks` | disscli/main.py:143-150 | One row per hook, and each row carries that hook's default flag. Every hook appears, and no name repeats (names in strictly increasing order). |
| `Hooks.RunKeepsSingleDefault` | disscli/main.py:379-429 | Any sequence of add, delete and set-default commands keeps the invariant, failed commands included. |
| `Hooks.SingleDefaultFromEmpty` | disscli/main.py:98-163 | From the empty table, the invariant holds after any sequence of hook commands. |
| `Hooks.Apply` | disscli/main.py:98-163 | A failed command changes nothing: adding an existing name, or deleting or making default an unknown one. Otherwise an add adds its name, a delete removes its name, and set-default keeps the names and leaves the named hook the only default. |
| `Hooks.HookManagementScenario` | tests/test_disscli.py:46-77 | Walks through the hook test's sequence: the first hook becomes the default and survives a second add. Switching the default works. A duplicate add fails. After a deletion the deleted URL is gone and the other hook is still the default. |
| `Text.WordsAreWords` | disscli/main.py:219 | `message.split()`: every token is non-empty and contains no whitespace. |
| `Text.WordsKeepText` | disscli/main.py:219 | The tokens, concatenated, are the message with its whitespace removed. No character is lost or reordered. |
| `Text.WordsSeparate` | disscli/main.py:219 | A whitespace character splits the tokens of a text into those before it followed by those after it. |
| `Text.WordsOfJoin` | disscli/main.py:219 | Splitting a space-joined list of tokens gives the list back. |
| `Text.Words` | disscli/main.py:219 | `message.split()`: there are never more tokens than characters. What the tokens are is stated by `Text.WordsAreWords`, `Text.WordsKeepText` and `Text.WordsSeparate`. |
| `Text.Split` | disscli/main.py:189 | `s.split(sep)` yields at least one piece, even for the empty string. |
| `Text.SplitNoSep` | disscli/main.py:189 | No piece of `s.split(sep)` contains the separator. |
| `Text.JoinSplit` | disscli/main.py:189 | Joining the pieces of a split restores the string. |
| `Text.SplitJoin` | disscli/main.py:199 | Splitting a join of separator-free pieces gives the pieces back. |
| `Text.Join` | disscli/main.py:199 | `sep.join(parts)` starts with the first part, and when there are more parts the separator follows it. `Text.JoinSplit` and `Text.SplitJoin` make it the inverse of `split`. |
| `Text.Least` | disscli/main.py:132 | The least name of a non-empty set is in the set and sorts no later than any member. |
| `Messages.KeepMentions` | disscli/main.py:219 | A token is kept iff it starts with `@`. No more tokens are kept than were given. |
| `Messages.KeepMentionsAppend` | disscli/main.py:219 | Filtering distributes over concatenation, so mentions keep their original order. |
| `Messages.Mentions` | disscli/main.py:219 | The mentions are exactly the whitespace-separated tokens starting with `@`, taken verbatim. |
| `Messages.MentionsSeparate` | disscli/main.py:219 | The mentions of `a + " " + b` are the mentions of `a` followed by those of `b`. |
| `Messages.ScenarioMentions` | disscli/main.py:219 | The mentions of "hello @bob and @carol" are `["@bob", "@carol"]`. |
| `Messages.EncodeMentions` | disscli/main.py:199 | An empty list is stored as NULL. A non-empty list is stored as a present value. |
| `Messages.DecodeMentions` | disscli/main.py:185-189 | NULL reads as no users. A stored string reads as at least one piece. |
| `Messages.DecodeMentionsCommaFree` | disscli/main.py:189 | No user read back from a stored string contains a comma. |
| `Messages.MentionsRoundTrip` | disscli/main.py:185-199 | Comma-free mentions read back exactly as they were saved. |
| `Messages.SaveMessage` | disscli/main.py:194-200 | Exactly one row is appended, and every earlier row is unchanged. The new row holds the message and its encoded mentions. |
| `Messages.SaveTwiceGivesTwoRows` | disscli/main.py:194-200 | Saving the same message twice adds two equal rows. Saving does not deduplicate. |
| `Messages.ListMessages` | disscli/main.py:203-207 | One (message, mentions) pair per row, in insertion order. |
| `Messages.ListMessagesAfterSave` | disscli/main.py:194-207 | After a save, the listing is the old listing followed by the saved message. |
| `Messages.DeleteLogs` | disscli/main.py:210-215 | The log is emptied, and the reported count is the number of rows it held. |
| `Messages.DeleteLogsEmpties` | disscli/main.py:203-215 | After the purge there are no messages and no users. The count equals the number of messages listed before. |
| `Messages.MessageManagementScenario` | tests/test_disscli.py:99-113 | Walks through the message test: a save without mentions stores NULL, and a save with two stores them comma-joined. Both are listed in order. The purge removes 2. |
| `Messages.ListUsers` | disscli/main.py:182-191 | A user is listed iff some row's stored mentions contain it as a comma-separated piece. |
| `Messages.ListUsersAppend` | disscli/main.py:182-191 | One more row adds exactly that row's users. |
| `Messages.ListUsersAreSavedMentions` | disscli/main.py:182-200 | When no mention contains a comma, the users after a series of saves are the earlier users plus exactly the saved mentions. |
| `Messages.CommaInMentionSplitsUser` | disscli/main.py:189 | A saved mention `@a,b` is listed as the two users `@a` and `b`. |
| `Messages.SendMessage` | disscli/main.py:218-230 | Delivery succeeds iff the status is 204, and a failure carries the status. On success exactly one row is appended, holding the message and its mentions. On failure nothing is stored. |
| `Messages.SendScenario` | disscli/main.py:218-230 | Delivering "hello @bob and @carol" stores one row with `@bob,@carol`. `list_users` then returns those two users. |
| `Cli.AliasesNameSubcommands` | disscli/main.py:17-25 | Every alias names one of the known subcommands, and no alias names another alias. |
| `Cli.ResolveAlias` | disscli/main.py:293-295 | An alias expands to a known subcommand, and any other argument is kept. The result is never an alias, so expanding twice changes nothing. |
| `Cli.Dispatch` | disscli/main.py:297-366 | A subcommand runs iff the expanded first argument is a known subcommand, and it receives the remaining arguments. Otherwise the arguments are joined by spaces into the message. An empty message shows the help. |
| `Cli.AliasDispatchesAsSubcommand` | disscli/main.py:293-298 | An alias and its full subcommand name dispatch identically. |
| `Cli.DefaultWebhookUrl` | disscli/main.py:437-442 | A URL is returned only if it is non-empty and belongs to a default hook. None means either there is no default or the default hook's URL is empty. |
| `Cli.SetDefaultRoutesMessages` | disscli/main.py:435-442 | After `hook <name>`, messages are sent to that hook's URL, or to nowhere if that URL is empty. |
| `Cli.SendToDefault` | disscli/main.py:435-448 | Sending succeeds iff a default URL exists and the status is 204. The error is either `NoWebhookConfigured` or the delivery failure with its status. A success appends exactly one row for the message and leaves the hooks unchanged. |
| `Cli.SendRecordsMentions` | disscli/main.py:435-448 | A delivered message adds exactly its mentions to the listed users, when none of them contains a comma. |
| `Release.TrimIntSpace` | scripts/release.py:48 | What `int()` reads has none of its skippable whitespace at either end. A field without such whitespace at its ends is read as it is. |
| `Release.TrimIntSpaceEnds` | scripts/release.py:48 | The trimmed field is a slice of the field, and everything cut off before and after it is whitespace that `int()` skips. Nothing is removed from the middle. |
| `Release.ParseInt` | scripts/release.py:48 | `int(field)`: a parse succeeds only on a field that is not blank after trimming, and a negative result comes from a leading minus sign. |
| `Release.ParseIntPadded` | scripts/release.py:48 | Surrounding a field with whitespace that `int()` skips does not change the value read. |
| `Release.IntRejectsSeparator` | scripts/release.py:48 | `int("\x1c1")` fails: U+001C is not skipped, although `str.isspace` accepts it. |
| `Release.VersionRejectsSeparator` | scripts/release.py:48 | Reading the version `"1.2.3\x1f"` fails with `MalformedVersion`, because its last field is not an integer. |
| `Release.NatToStringValue` | scripts/release.py:59 | The decimal digits written for `n` have the value `n`. |
| `Release.NatToString` | scripts/release.py:59 | The digits of a natural number have no leading zero: the first digit is `0` only for zero, which is written `"0"`. |
| `Release.RenderInt` | scripts/release.py:59 | `f"{i}"` is a plain decimal. A minus sign comes first iff `i` is negative, and every other character is a digit. There is no leading zero: `"0"` is the only rendering that starts with `0`, and a minus sign is never followed by `0`. |
| `Release.ParseRenderInt` | scripts/release.py:48-59 | `int(f"{i}") == i` for every integer, with no digit limit. |
| `Release.ParseVersion` | scripts/release.py:48 | Parsing succeeds iff the text splits at dots into exactly three fields that each parse as an integer. Otherwise the error is `MalformedVersion`. |
| `Release.RenderVersion` | scripts/release.py:59 | A rendered version is non-empty and contains no quote, so it can be placed between the quotes of `version="..."`. |
| `Release.ParseRenderVersion` | scripts/release.py:48-59 | Reading a rendered version gives the same version back. |
| `Release.Bump` | scripts/release.py:49-57 | The bumped version is strictly greater (major, then minor, then patch). Major resets minor and patch, minor resets patch, and patch increments only patch. |
| `Release.MinorBumpExample` | scripts/release.py:53-59 | A minor bump of 1.2.3 is written "1.3.0". |
| `Release.MatchAt` | scripts/release.py:62 | A match at the start of the text begins with the key, holds at least one character after it, and ends with a quote. |
| `Release.MatchAtShape` | scripts/release.py:62 | The matched version contains no quote, so the match ends at the first quote after the key. When the key is present but there is no match, either there is no quote after the key or the quote follows the key immediately. |
| `Release.FirstVersion` | scripts/release.py:40 | A found version is non-empty, since the pattern needs at least one character. |
| `Release.VersionsWellFormed` | scripts/release.py:61-65 | Every matched version is non-empty and quote-free. |
| `Release.FirstVersionIsFirst` | scripts/release.py:40-65 | The version `re.search` finds is the first one `re.sub` visits. None means there is no match at all. |
| `Release.Versions` | scripts/release.py:61-65 | The quoted texts of the matches `re.sub` visits, left to right. Their shape is stated by `Release.VersionsWellFormed`, and `Release.WeaveGapsVersions` puts them back into the text. |
| `Release.Gaps` | scripts/release.py:61-65 | The text outside the matches has exactly one piece more than there are matches: before the first, between each two, and after the last. |
| `Release.WeaveGapsVersions` | scripts/release.py:61-65 | A text is exactly its gaps with its matches, key and quotes included, put back in between. So the matches and gaps describe the whole text. |
| `Release.MatchAtAgree` | scripts/release.py:62 | Two texts that share a prefix ending in a quote after the key match, or fail to match, identically. |
| `Release.RewriteCopiesPrefix` | scripts/release.py:61-65 | The text before the first match, up to the quote of its key, is copied unchanged. |
| `Release.NoMatchPreserved` | scripts/release.py:61-65 | The rewrite creates no match where there was none. |
| `Release.RewriteSameIsIdentity` | scripts/release.py:61-65 | Rewriting with the version already present at every match changes nothing. With no match, the text is returned unchanged. |
| `Release.Rewrite` | scripts/release.py:61-65 | `re.sub` scans left to right and replaces each match it finds, then continues after it. Its contract is stated by `Release.RewriteKeepsGaps`, `Release.RewriteReplacesEvery` and `Release.RewriteIsWeave`. |
| `Release.RewriteKeepsGaps` | scripts/release.py:61-65 | For a non-empty, quote-free replacement, the rewrite leaves every piece of text outside the matches unchanged. |
| `Release.RewriteIsWeave` | scripts/release.py:61-65 | The rewritten text is the old gaps with the replacement put in at every match, and nothing else. |
| `Release.RewriteReplacesEvery` | scripts/release.py:61-65 | After the rewrite the matches are exactly as many as before, and every one of them holds the new version. |
| `Release.RewriteIdempotent` | scripts/release.py:61-65 | A second rewrite with the same version changes nothing. |
| `Release.CurrentVersion` | scripts/release.py:37-44 | Fails with `NoVersionFound` iff setup.py has no match. Otherwise it returns the first match's version. |
| `Release.KindOf` | scripts/release.py:49-57 | `bump_type` "major" and "minor" select those bumps, and every other string selects the patch bump. |
| `Release.UpdateVersion` | scripts/release.py:46-67 | Fails iff the current version is malformed, with no digit limit. Otherwise the new version is the bump the bump type selects, written `"{M}.{m}.{p}"`, and it reads back as that bump. Every version in setup.py is replaced by it, the number of versions stays the same, and the text outside the versions, as read, is unchanged. |
| `Release.UpdateThenRead` | scripts/release.py:37-67 | After an update, `get_current_version` of the new setup.py returns the new version. A setup.py without a version is left unchanged. |

## Left out

- SQLite itself is not modelled: connections, `init_db`, table creation and transactions. Each table is a value, and each operation is atomic.
- The HTTP post to the webhook is not modelled. Its status code is a parameter (`Messages.SendMessage`, `Cli.SendToDefault`), and the username, avatar and response text are not modelled.
- Printing is not modelled: the confirmation and error messages, `whathook`, `whoami`, and the listing output of `list`/`users`/`listhooks`. The model returns the values that would be printed.
- The JSON configuration file is not modelled: `load_config`, `save_config`, `set_user`, `whoami`, `export_config` and `import_config`. These are file I/O on a separate store that the modelled operations never read.
- Piped standard input, SIGPIPE handling and argparse's own parsing errors are not modelled. Neither is the "wrap in quotes" message for a failed parse, nor the per-subcommand argument layout.
- The copy of the tool under `build/lib`, the root `main.py` and `setup.py` are not modelled. They hold a second copy of the code and packaging metadata.
- The git, GitHub, curl and Homebrew steps of the release script are not modelled: token handling, commits, tags, releases and the package hash. They are external commands.
- Release.ParseInt: Python's `int()` also accepts non-ASCII Unicode decimal digits. The model accepts only ASCII digits, with single underscores between them. It also has no limit on the number of digits: CPython (3.11 and later, and the 3.7.14, 3.8.14, 3.9.14 and 3.10.7 security releases) raises ValueError when a decimal string longer than 4300 digits is converted. The limit can be changed with `sys.set_int_max_str_digits` or `PYTHONINTMAXSTRDIGITS`, so the model leaves it out.
- Release.ParseRenderInt: holds only without CPython's 4300-digit conversion limit. With the default limit, both `int()` and `f"{i}"` raise ValueError for integers with more than 4300 digits.
- Release.UpdateVersion: does not model the 4300-digit limit. A current version such as `"1.2." + "9" * 4300` with bump type `"patch"` parses in Python, but rendering the new patch number (10^4300) raises ValueError; the model returns Success.
- Release.UpdateVersion: works on the text that `Path.read_text()` returns. Reading turns `"\r\n"` and a lone `"\r"` into `"\n"` and decodes with the locale encoding. `Path.write_text()` turns each `"\n"` into `os.linesep` and encodes with the locale encoding. So line endings and encoding of the file on disk can change; only the decoded text outside the versions is kept.
- Release.Rewrite: `re.sub` interprets backslash escapes in the replacement. The model inserts the replacement literally. A rendered version contains only digits, `-` and `.`, so the two agree for every replacement the script builds.
- Hooks.Successor: SQLite does not specify which remaining row `LIMIT 1` returns. The model picks the least name, and its contract promises only that the successor is a remaining hook.
- Hooks.ListHooks: SQLite does not specify the row order of the listing. The model lists names in code-point order.
- Hooks.GetDefaultHook: with several flagged hooks, SQLite's first row is unspecified, and the model returns the least flagged name. This state cannot be reached from an empty table (`Hooks.SingleDefaultFromEmpty`).

=== FILE: cli.dfy ===
/**
 * The command-line front of the tool: alias expansion of the first argument,
 * the choice between a subcommand and a message to send, and the send path
 * that resolves the default hook before delivering.
 */
module Cli {
  import opened Common
  import Text
  import Hooks
  import Messages

  /** The short names accepted in place of a subcommand. */
  const Aliases: map<string, string> := map[
    "ls" := "list",
    "lh" := "listhooks",
    "wh" := "whathook",
    "su" := "setuser",
    "who" := "whoami",
    "dh" := "deletehook",
    "dl" := "deletelogs"
  ]

  /** The subcommands the tool knows. */
  const Subcommands: seq<string> := [
    "addhook", "listhooks", "hook", "whathook", "users", "list", "setuser",
    "whoami", "exportconfig", "importconfig", "deletehook", "deletelogs"
  ]

  /** The first argument after alias expansion. */
  function ResolveAlias(arg: string): (r: string)
    ensures arg in Aliases ==> r in Subcommands
    ensures arg !in Aliases ==> r == arg
    ensures r !in Aliases
  {
    AliasesNameSubcommands();
    if arg in Aliases then Aliases[arg] else arg
  }

  /** Every alias stands for a known subcommand that is not itself an alias. */
  lemma {:induction false} AliasesNameSubcommands()
    ensures forall a | a in Aliases :: Aliases[a] in Subcommands && Aliases[a] !in Aliases
  {
    forall a | a in Aliases
      ensures Aliases[a] in Subcommands && Aliases[a] !in Aliases
    {
      AliasTarget(a);
      AliasesAreShort(Aliases[a]);
    }
  }

  lemma {:induction false} AliasTarget(a: string)
    requires a in Aliases
    ensures Aliases[a] in Subcommands && |Aliases[a]| >= 4
  {
    assert Aliases.Keys == {"ls", "lh", "wh", "su", "who", "dh", "dl"};
    var v := Aliases[a];
    if a == "ls" { assert v == Subcommands[5]; }
    else if a == "lh" { assert v == Subcommands[1]; }
    else if a == "wh" { assert v == Subcommands[3]; }
    else if a == "su" { assert v == Subcommands[6]; }
    else if a == "who" { assert v == Subcommands[7]; }
    else if a == "dh" { assert v == Subcommands[10]; }
    else { assert v == Subcommands[11]; }
  }

  /** Every alias is at most three characters long. */
  lemma {:induction false} AliasesAreShort(s: string)
    requires |s| >= 4
    ensures s !in Aliases
  {
    assert Aliases.Keys == {"ls", "lh", "wh", "su", "who", "dh", "dl"};
  }

  /** What the tool does with its arguments. */
  datatype Invocation =
    | Subcommand(name: string, args: seq<string>)
    | SendText(text: string)
    | Help

  /**
   * The dispatch of the tool's arguments (without the program name): a first
   * argument that names a subcommand after alias expansion runs it; otherwise
   * the arguments joined by spaces are the message, and an empty message
   * prints the help.
   */
  function Dispatch(args: seq<string>): (inv: Invocation)
    ensures inv.Subcommand? <==> |args| > 0 && ResolveAlias(args[0]) in Subcommands
    ensures inv.Subcommand? ==> inv.name == ResolveAlias(args[0]) && inv.args == args[1..]
    ensures inv.SendText? ==> inv.text == Text.Join(args, ' ') && inv.text != ""
    ensures inv.Help? ==> Text.Join(args, ' ') == ""
  {
    if |args| > 0 && ResolveAlias(args[0]) in Subcommands then Subcommand(ResolveAlias(args[0]), args[1..])
    else
      var text := Text.Join(args, ' ');
      if text == "" then Help else SendText(text)
  }

  /**
   * The URL a message goes to: the URL of the default hook, unless there is
   * no default hook or its URL is empty.
   */
  function DefaultWebhookUrl(reg: Hooks.Registry): (url: Option<string>)
    ensures url.Some? ==> url.value != ""
    ensures url.Some? ==> exists d | d in reg :: reg[d].isDefault && reg[d].url == url.value
    ensures url.None? ==> Hooks.Defaults(reg) == {} || exists d | d in reg :: reg[d].isDefault && reg[d].url == ""
  {
    match Hooks.GetDefaultHook(reg)
    case None => None
    case Some(name) =>
      match Hooks.GetHookUrl(reg, name)
      case None => None
      case Some(u) => if u == "" then None else Some(u)
  }

  /** The two tables of the tool's store. */
  datatype Store = Store(hooks: Hooks.Registry, log: Messages.Log)

  /** The errors of the send path. */
  datatype SendFailure = NoWebhookConfigured | Undelivered(cause: Messages.SendError)

  /**
   * Sending a message to the default hook; `status` is the HTTP status the
   * webhook answered with.
   */
  function SendToDefault(store: Store, text: string, status: int): (r: Result<Store, SendFailure>)
    ensures r.Success? <==> DefaultWebhookUrl(store.hooks).Some? && status == Messages.DeliveredStatus
    ensures DefaultWebhookUrl(store.hooks).None? ==> r == Failure(NoWebhookConfigured)
    ensures DefaultWebhookUrl(store.hooks).Some? && status != Messages.DeliveredStatus ==>
      r == Failure(Undelivered(Messages.DeliveryFailed(status)))
    ensures r.Success? ==> r.value.hooks == store.hooks
    ensures r.Success? ==> |r.value.log| == |store.log| + 1 && r.value.log[..|store.log|] == store.log
    ensures r.Success? ==> r.value.log[|store.log|].message == text
  {
    match DefaultWebhookUrl(store.hooks)
    case None => Failure(NoWebhookConfigured)
    case Some(_) =>
      match Messages.SendMessage(store.log, text, status)
      case Failure(e) => Failure(Undelivered(e))
      case Success(log) => Success(Store(store.hooks, log))
  }

  /** An alias and the subcommand it stands for dispatch alike. */
  lemma {:induction false} AliasDispatchesAsSubcommand(a: string, args: seq<string>)
    requires a in Aliases
    ensures Dispatch([a] + args) == Dispatch([Aliases[a]] + args)
    ensures Dispatch([a] + args) == Subcommand(Aliases[a], args)
  {
    AliasesNameSubcommands();
    assert ([a] + args)[1..] == args;
    assert ([Aliases[a]] + args)[1..] == args;
  }

  /** After `hook <name>`, messages go to that hook's URL, unless it is empty. */
  lemma {:induction false} SetDefaultRoutesMessages(reg: Hooks.Registry, name: string)
    requires name in reg
    ensures Hooks.SetDefaultHook(reg, name).Success?
    ensures DefaultWebhookUrl(Hooks.SetDefaultHook(reg, name).value)
      == (if reg[name].url == "" then None else Some(reg[name].url))
  {
    Hooks.SetDefaultHookKeepsSingleDefault(reg, name);
  }

  /**
   * A delivered message adds the users it mentions to those `users` lists,
   * provided no mention contains a comma.
   */
  lemma {:induction false} SendRecordsMentions(store: Store, text: string, status: int)
    requires SendToDefault(store, text, status).Success?
    requires forall m | m in Messages.Mentions(text) :: ',' !in m
    ensures Messages.ListUsers(SendToDefault(store, text, status).value.log)
      == Messages.ListUsers(store.log) + (set m | m in Messages.Mentions(text))
  {
    var log := SendToDefault(store, text, status).value.log;
    var row := log[|store.log|];
    assert log == store.log + [row];
    Messages.ListUsersAppend(store.log, row);
    Messages.MentionsRoundTrip(Messages.Mentions(text));
  }
}

=== FILE: common.dfy ===
/** Option and Result types shared by the other modules of the model. */
module Common {

  /** A value that may be absent (Python's `None`). */
  datatype Option<T> = None | Some(value: T)

  /** The outcome of an operation that can fail with an error of type E. */
  datatype Result<T, E> = Success(value: T) | Failure(error: E)
}

=== FILE: hooks.dfy ===
/**
 * The webhook registry of the command-line tool: a table of named webhook
 * URLs, at most one of which is flagged as the default target for messages.
 * Each operation of the tool runs in one SQLite transaction, so each is
 * modelled as one atomic transition of an in-memory map.
 */
module Hooks {
  import opened Common
  import Text

  /** One row of the hooks table, keyed by its name. */
  datatype Hook = Hook(url: string, isDefault: bool)

  type Registry = map<string, Hook>

  /** The errors the registry reports (the tool prints them and changes nothing). */
  datatype HookError = DuplicateName | NotFound

  /** The names whose row carries the default flag. */
  function Defaults(reg: Registry): set<string> {
    set n | n in reg && reg[n].isDefault
  }

  /**
   * The registry invariant: at most one default, and exactly one whenever
   * the registry holds any hook.
   */
  predicate SingleDefault(reg: Registry) {
    |Defaults(reg)| <= 1 && (|reg| > 0 ==> |Defaults(reg)| == 1)
  }

  /** `add_hook`: register a new name; the first hook ever added becomes the default. */
  function AddHook(reg: Registry, name: string, url: string): (r: Result<Registry, HookError>)
    ensures r.Failure? <==> name in reg
    ensures r.Failure? ==> r.error == DuplicateName
    ensures r.Success? ==> r.value.Keys == reg.Keys + {name}
    ensures r.Success? ==> r.value[name].url == url
    ensures r.Success? ==> (r.value[name].isDefault <==> |reg| == 0)
    ensures r.Success? ==> forall n | n in reg :: r.value[n] == reg[n]
  {
    if name in reg then Failure(DuplicateName)
    else Success(reg[name := Hook(url, |reg| == 0)])
  }

  /**
   * The hook that takes over the default flag when the default hook is
   * deleted: the first remaining name in code-point order.
   */
  function Successor(rest: Registry): (next: string)
    requires |rest| > 0
    ensures next in rest
  {
    assert rest.Keys != {} by {
      var n :| n in rest;
    }
    Text.Least(rest.Keys)
  }

  /**
   * `delete_hook`: remove a registered hook. When it was the default, the
   * flag passes to a remaining hook, if there is one.
   */
  function DeleteHook(reg: Registry, name: string): (r: Result<Registry, HookError>)
    ensures r.Failure? <==> name !in reg
    ensures r.Failure? ==> r.error == NotFound
    ensures r.Success? ==> r.value.Keys == reg.Keys - {name}
    ensures r.Success? ==> forall n | n in r.value :: r.value[n].url == reg[n].url
    ensures r.Success? && !reg[name].isDefault ==> forall n | n in r.value :: r.value[n] == reg[n]
    ensures r.Success? && reg[name].isDefault && |r.value| > 0 ==>
      exists next | next in r.value :: r.value[next].isDefault
        && forall n | n in r.value && n != next :: r.value[n] == reg[n]
  {
    if name !in reg then Failure(NotFound)
    else
      var rest := reg - {name};
      if reg[name].isDefault && |rest| > 0 then
        var next := Successor(rest);
        Success(rest[next := Hook(rest[next].url, true)])
      else
        Success(rest)
  }

  /** `set_default_hook`: clear every default flag, then set the named one. */
  function SetDefaultHook(reg: Registry, name: string): (r: Result<Registry, HookError>)
    ensures r.Failure? <==> name !in reg
    ensures r.Failure? ==> r.error == NotFound
    ensures r.Success? ==> r.value.Keys == reg.Keys
    ensures r.Success? ==> forall n | n in reg :: r.value[n].url == reg[n].url
    ensures r.Success? ==> Defaults(r.value) == {name}
  {
    if name !in reg then Failure(NotFound)
    else Success(map n | n in reg :: Hook(reg[n].url, n == name))
  }

  /** `get_default_hook`: the name flagged as default, if any. */
  function GetDefaultHook(reg: Registry): (r: Option<string>)
    ensures r.None? <==> Defaults(reg) == {}
    ensures r.Some? ==> r.value in reg && reg[r.value].isDefault
  {
    if Defaults(reg) == {} then None else Some(Text.Least(Defaults(reg)))
  }

  /** `get_hook_url`: the URL registered under a name, if any. */
  function GetHookUrl(reg: Registry, name: string): (r: Option<string>)
    ensures r.Some? <==> name in reg
    ensures r.Some? ==> r.value == reg[name].url
  {
    if name in reg then Some(reg[name].url) else None
  }

  /**
   * `list_hooks`: every hook with its default flag, one row per name, in
   * code-point order of the names.
   */
  function ListHooks(reg: Registry): (rows: seq<(string, bool)>)
    ensures IsListing(reg, rows)
    decreases |reg|
  {
    if |reg| == 0 then []
    else
      var first := Successor(reg);
      var rest := reg - {first};
      assert |rest| == |reg| - 1 by {
        assert rest.Keys == reg.Keys - {first};
      }
      var tail := ListHooks(rest);
      ListingCons(reg, first, tail);
      [(first, reg[first].isDefault)] + tail
  }

  /** The names of a listing appear in strictly increasing code-point order. */
  predicate StrictlySorted(rows: seq<(string, bool)>) {
    forall i, j | 0 <= i < j < |rows| :: Text.LessEq(rows[i].0, rows[j].0) && rows[i].0 != rows[j].0
  }

  /** A listing of a registry, as `ListHooks` promises it. */
  predicate IsListing(reg: Registry, rows: seq<(string, bool)>) {
    && |rows| == |reg|
    && (forall i | 0 <= i < |rows| :: rows[i].0 in reg && rows[i].1 == reg[rows[i].0].isDefault)
    && (forall n | n in reg :: exists i | 0 <= i < |rows| :: rows[i].0 == n)
    && StrictlySorted(rows)
  }

  lemma {:induction false} SortedCons(first: string, b: bool, tail: seq<(string, bool)>)
    requires forall i | 0 <= i < |tail| :: Text.LessEq(first, tail[i].0) && first != tail[i].0
    requires StrictlySorted(tail)
    ensures StrictlySorted([(first, b)] + tail)
  {
    var rows := [(first, b)] + tail;
    forall i, j | 0 <= i < j < |rows|
      ensures Text.LessEq(rows[i].0, rows[j].0) && rows[i].0 != rows[j].0
    {
      assert rows[j] == tail[j - 1];
      if i > 0 {
        assert rows[i] == tail[i - 1];
      }
    }
  }

  lemma {:induction false} ListingCons(reg: Registry, first: string, tail: seq<(string, bool)>)
    requires first in reg && forall n | n in reg :: Text.LessEq(first, n)
    requires IsListing(reg - {first}, tail)
    ensures IsListing(reg, [(first, reg[first].isDefault)] + tail)
  {
    var rest := reg - {first};
    var rows := [(first, reg[first].isDefault)] + tail;
    assert |rest| == |reg| - 1 by {
      assert rest.Keys == reg.Keys - {first};
    }
    forall n | n in reg
      ensures exists i | 0 <= i < |rows| :: rows[i].0 == n
    {
      if n == first {
        assert rows[0].0 == n;
      } else {
        assert n in rest;
        var i :| 0 <= i < |tail| && tail[i].0 == n;
        assert rows[i + 1].0 == n;
      }
    }
    forall i | 0 <= i < |rows|
      ensures rows[i].0 in reg && rows[i].1 == reg[rows[i].0].isDefault
    {
      if i > 0 {
        assert rows[i] == tail[i - 1];
        assert tail[i - 1].0 in rest;
      }
    }
    forall i | 0 <= i < |tail|
      ensures Text.LessEq(first, tail[i].0) && first != tail[i].0
    {
      assert tail[i].0 in rest;
    }
    SortedCons(first, reg[first].isDefault, tail);
  }

  /** A hook command of the tool, as a transition of the registry. */
  datatype Command = Add(name: string, url: string) | Delete(name: string) | SetDefault(name: string)

  /** One command; a command that fails leaves the registry as it was. */
  function Apply(reg: Registry, cmd: Command): (r: Registry)
    ensures cmd.Add? && cmd.name in reg ==> r == reg
    ensures !cmd.Add? && cmd.name !in reg ==> r == reg
    ensures cmd.Add? ==> r.Keys == reg.Keys + {cmd.name}
    ensures cmd.Delete? ==> r.Keys == reg.Keys - {cmd.name}
    ensures cmd.SetDefault? ==> r.Keys == reg.Keys
    ensures cmd.SetDefault? && cmd.name in reg ==> Defaults(r) == {cmd.name}
  {
    var r := match cmd
      case Add(name, url) => AddHook(reg, name, url)
      case Delete(name) => DeleteHook(reg, name)
      case SetDefault(name) => SetDefaultHook(reg, name);
    if r.Success? then r.value else reg
  }

  /** A sequence of commands, run in order. */
  function Run(reg: Registry, cmds: seq<Command>): Registry
    decreases |cmds|
  {
    if cmds == [] then reg else Run(Apply(reg, cmds[0]), cmds[1..])
  }

  /** A one-element set that contains `d` is `{d}`. */
  lemma {:induction false} OnlyDefault(s: set<string>, d: string)
    requires |s| == 1 && d in s
    ensures s == {d}
  {
    assert |s - {d}| == 0;
  }

  /** Under the invariant, `get_default_hook` names the one default hook. */
  lemma {:induction false} GetDefaultHookIsTheDefault(reg: Registry)
    requires SingleDefault(reg)
    ensures |reg| > 0 <==> GetDefaultHook(reg).Some?
    ensures forall d | d in reg && reg[d].isDefault :: GetDefaultHook(reg) == Some(d)
  {
    if |reg| > 0 {
      assert Defaults(reg) != {};
      var d := GetDefaultHook(reg).value;
      OnlyDefault(Defaults(reg), d);
      forall e | e in reg && reg[e].isDefault
        ensures GetDefaultHook(reg) == Some(e)
      {
        assert e in Defaults(reg);
      }
    } else {
      assert Defaults(reg) == {};
    }
  }

  /** `add_hook` keeps the invariant, and the first hook added becomes the default. */
  lemma {:induction false} AddHookKeepsSingleDefault(reg: Registry, name: string, url: string)
    requires SingleDefault(reg)
    ensures AddHook(reg, name, url).Success? ==> SingleDefault(AddHook(reg, name, url).value)
    ensures AddHook(reg, name, url).Success? && |reg| == 0 ==>
      GetDefaultHook(AddHook(reg, name, url).value) == Some(name)
    ensures AddHook(reg, name, url).Success? && |reg| > 0 ==>
      GetDefaultHook(AddHook(reg, name, url).value) == GetDefaultHook(reg)
  {
    var r := AddHook(reg, name, url);
    if r.Success? {
      var next := r.value;
      if |reg| == 0 {
        assert Defaults(next) == {name};
      } else {
        assert Defaults(next) == Defaults(reg);
      }
      assert |next| > 0 by {
        assert name in next;
      }
    }
  }

  /** `set_default_hook` establishes the invariant, whatever the flags were before. */
  lemma {:induction false} SetDefaultHookKeepsSingleDefault(reg: Registry, name: string)
    ensures SetDefaultHook(reg, name).Success? ==> SingleDefault(SetDefaultHook(reg, name).value)
    ensures SetDefaultHook(reg, name).Success? ==> GetDefaultHook(SetDefaultHook(reg, name).value) == Some(name)
    ensures SetDefaultHook(reg, name).Failure? ==> Apply(reg, SetDefault(name)) == reg
  {
    var r := SetDefaultHook(reg, name);
    if r.Success? {
      assert |Defaults(r.value)| == 1;
    }
  }

  /** Deleting a hook that is not the default leaves the default where it was. */
  lemma {:induction false} DeleteNonDefaultKeepsDefault(reg: Registry, name: string)
    requires name in reg && !reg[name].isDefault
    ensures DeleteHook(reg, name).Success?
    ensures Defaults(DeleteHook(reg, name).value) == Defaults(reg)
    ensures GetDefaultHook(DeleteHook(reg, name).value) == GetDefaultHook(reg)
    ensures GetHookUrl(DeleteHook(reg, name).value, name).None?
  {
    var next := DeleteHook(reg, name).value;
    assert Defaults(next) == Defaults(reg);
  }

  /**
   * Deleting the default hook passes the flag to exactly one other hook, or
   * leaves no default when it was the last hook.
   */
  lemma {:induction false} DeleteDefaultPassesFlag(reg: Registry, name: string)
    requires SingleDefault(reg) && name in reg && reg[name].isDefault
    ensures DeleteHook(reg, name).Success?
    ensures |reg| == 1 ==> DeleteHook(reg, name).value == map[]
    ensures |reg| == 1 ==> GetDefaultHook(DeleteHook(reg, name).value).None?
    ensures |reg| > 1 ==> |Defaults(DeleteHook(reg, name).value)| == 1
    ensures |reg| > 1 ==> GetDefaultHook(DeleteHook(reg, name).value).Some?
    ensures |reg| > 1 ==> GetDefaultHook(DeleteHook(reg, name).value) != Some(name)
    ensures GetHookUrl(DeleteHook(reg, name).value, name).None?
  {
    var rest := reg - {name};
    assert |rest| == |reg| - 1 by {
      assert rest.Keys == reg.Keys - {name};
    }
    OnlyDefault(Defaults(reg), name);
    var r := DeleteHook(reg, name).value;
    if |rest| > 0 {
      var next := Successor(rest);
      forall n | n in rest && n != next
        ensures !r[n].isDefault
      {
        assert n !in Defaults(reg);
      }
      assert Defaults(r) == {next};
    } else {
      assert rest.Keys == {};
      assert Defaults(r) == {};
    }
  }

  /** `delete_hook` keeps the invariant. */
  lemma {:induction false} DeleteHookKeepsSingleDefault(reg: Registry, name: string)
    requires SingleDefault(reg)
    ensures DeleteHook(reg, name).Success? ==> SingleDefault(DeleteHook(reg, name).value)
  {
    if name in reg {
      var r := DeleteHook(reg, name).value;
      var rest := reg - {name};
      assert |rest| == |reg| - 1 by {
        assert rest.Keys == reg.Keys - {name};
      }
      if reg[name].isDefault {
        DeleteDefaultPassesFlag(reg, name);
      } else {
        DeleteNonDefaultKeepsDefault(reg, name);
        if |r| > 0 {
          var d := GetDefaultHook(reg).value;
          GetDefaultHookIsTheDefault(reg);
          assert d != name;
        }
      }
    }
  }

  /** Every command keeps the invariant. */
  lemma {:induction false} ApplyKeepsSingleDefault(reg: Registry, cmd: Command)
    requires SingleDefault(reg)
    ensures SingleDefault(Apply(reg, cmd))
  {
    match cmd
    case Add(name, url) => AddHookKeepsSingleDefault(reg, name, url);
    case Delete(name) => DeleteHookKeepsSingleDefault(reg, name);
    case SetDefault(name) => SetDefaultHookKeepsSingleDefault(reg, name);
  }

  /** Every run of commands from a registry with the invariant keeps it. */
  lemma {:induction false} RunKeepsSingleDefault(reg: Registry, cmds: seq<Command>)
    requires SingleDefault(reg)
    ensures SingleDefault(Run(reg, cmds))
    decreases |cmds|
  {
    if cmds != [] {
      ApplyKeepsSingleDefault(reg, cmds[0]);
      RunKeepsSingleDefault(Apply(reg, cmds[0]), cmds[1..]);
    }
  }

  /**
   * From the empty registry, any sequence of `add_hook`, `delete_hook` and
   * `set_default_hook` leaves at most one default, and exactly one whenever
   * the registry is non-empty.
   */
  lemma {:induction false} SingleDefaultFromEmpty(cmds: seq<Command>)
    ensures SingleDefault(Run(map[], cmds))
  {
    assert Defaults(map[]) == {};
    RunKeepsSingleDefault(map[], cmds);
  }

  /** Making one hook the default and then deleting another leaves the first the default. */
  lemma {:induction false} SetDefaultSurvivesOtherDelete(reg: Registry, keep: string, drop: string)
    requires keep in reg && drop in reg && keep != drop
    ensures SetDefaultHook(reg, keep).Success?
    ensures DeleteHook(SetDefaultHook(reg, keep).value, drop).Success?
    ensures GetDefaultHook(DeleteHook(SetDefaultHook(reg, keep).value, drop).value) == Some(keep)
  {
    SetDefaultHookKeepsSingleDefault(reg, keep);
    var r := SetDefaultHook(reg, keep).value;
    assert !r[drop].isDefault by {
      assert drop !in Defaults(r);
    }
    DeleteNonDefaultKeepsDefault(r, drop);
  }

  /**
   * The first hook becomes the default and stays so when a second is added;
   * the second can be made the default; adding the first name again fails;
   * deleting the first hook leaves no URL under its name and the second the
   * default.
   */
  lemma {:induction false} HookManagementScenario(url1: string, url2: string, url3: string)
    ensures AddHook(map[], "test_hook", url1).Success?
    ensures var r1 := AddHook(map[], "test_hook", url1).value;
      && GetDefaultHook(r1) == Some("test_hook")
      && GetHookUrl(r1, "test_hook") == Some(url1)
      && AddHook(r1, "test_hook2", url2).Success?
      && var r2 := AddHook(r1, "test_hook2", url2).value;
      && GetDefaultHook(r2) == Some("test_hook")
      && SetDefaultHook(r2, "test_hook2").Success?
      && var r3 := SetDefaultHook(r2, "test_hook2").value;
      && GetDefaultHook(r3) == Some("test_hook2")
      && AddHook(r3, "test_hook", url3) == Failure(DuplicateName)
      && DeleteHook(r3, "test_hook").Success?
      && var r4 := DeleteHook(r3, "test_hook").value;
      && GetHookUrl(r4, "test_hook") == None
      && GetDefaultHook(r4) == Some("test_hook2")
  {
    var r0: Registry := map[];
    assert Defaults(r0) == {};
    AddHookKeepsSingleDefault(r0, "test_hook", url1);
    var r1 := AddHook(r0, "test_hook", url1).value;
    AddHookKeepsSingleDefault(r1, "test_hook2", url2);
    var r2 := AddHook(r1, "test_hook2", url2).value;
    SetDefaultHookKeepsSingleDefault(r2, "test_hook2");
    SetDefaultSurvivesOtherDelete(r2, "test_hook2", "test_hook");
    var r3 := SetDefaultHook(r2, "test_hook2").value;
    DeleteNonDefaultKeepsDefault(r3, "test_hook");
  }
}

=== FILE: messages.dfy ===
/**
 * The message log of the command-line tool: the messages delivered so far,
 * each with the mentions found in it, kept in insertion order.
 */
module Messages {
  import opened Common
  import Text

  /**
   * One row of the messages table. The mentions are stored joined by commas,
   * or absent when the message mentions nobody.
   */
  datatype Row = Row(message: string, mentions: Option<string>)

  type Log = seq<Row>

  /** The errors of sending a message. */
  datatype SendError = DeliveryFailed(status: int)

  /** The status code the webhook answers on a successful delivery. */
  const DeliveredStatus: int := 204

  /** A mention is a token that starts with the `@` sigil. */
  predicate IsMention(w: string) {
    |w| > 0 && w[0] == '@'
  }

  /** The mentions among a sequence of tokens, in their original order. */
  function KeepMentions(ws: seq<string>): (ms: seq<string>)
    ensures forall m | m in ms :: m in ws && IsMention(m)
    ensures forall w | w in ws && IsMention(w) :: w in ms
    ensures |ms| <= |ws|
    decreases |ws|
  {
    if ws == [] then []
    else if IsMention(ws[0]) then [ws[0]] + KeepMentions(ws[1..])
    else KeepMentions(ws[1..])
  }

  /** Keeping mentions distributes over concatenation, so order is preserved. */
  lemma {:induction false} KeepMentionsAppend(a: seq<string>, b: seq<string>)
    ensures KeepMentions(a + b) == KeepMentions(a) + KeepMentions(b)
    decreases |a|
  {
    if a == [] {
      assert a + b == b;
    } else {
      assert (a + b)[0] == a[0];
      assert (a + b)[1..] == a[1..] + b;
      KeepMentionsAppend(a[1..], b);
    }
  }

  /**
   * The mentions of a message (as `send_message` extracts them): the
   * whitespace-separated tokens that start with `@`, verbatim and in order.
   */
  function Mentions(message: string): (ms: seq<string>)
    ensures forall m | m in ms :: IsMention(m) && Text.IsWord(m)
    ensures forall m | m in ms :: m in Text.Words(message)
    ensures forall w | w in Text.Words(message) && IsMention(w) :: w in ms
  {
    Text.WordsAreWords(message);
    KeepMentions(Text.Words(message))
  }

  /**
   * Whitespace separates mentions: the mentions of `a + c + b` are those of
   * `a` followed by those of `b`.
   */
  lemma {:induction false} MentionsSeparate(a: string, c: char, b: string)
    requires Text.IsSpace(c)
    ensures Mentions(a + [c] + b) == Mentions(a) + Mentions(b)
  {
    Text.WordsSeparate(a, c, b);
    KeepMentionsAppend(Text.Words(a), Text.Words(b));
  }

  /** How `save_message` stores a list of mentions: joined by commas, absent when empty. */
  function EncodeMentions(ms: seq<string>): (r: Option<string>)
    ensures r.None? <==> ms == []
  {
    if ms == [] then None else Some(Text.Join(ms, ','))
  }

  /** How `list_users` reads a stored mentions field back: split at the commas. */
  function DecodeMentions(stored: Option<string>): (ms: seq<string>)
    ensures stored.None? ==> ms == []
    ensures stored.Some? ==> |ms| >= 1
  {
    match stored
    case None => []
    case Some(s) => Text.Split(s, ',')
  }

  /** No user read back from storage contains a comma. */
  lemma {:induction false} DecodeMentionsCommaFree(stored: Option<string>)
    ensures forall m | m in DecodeMentions(stored) :: ',' !in m
  {
    if stored.Some? {
      Text.SplitNoSep(stored.value, ',');
    }
  }

  /** Mentions free of commas survive storage unchanged. */
  lemma {:induction false} MentionsRoundTrip(ms: seq<string>)
    requires forall m | m in ms :: ',' !in m
    ensures DecodeMentions(EncodeMentions(ms)) == ms
  {
    if ms != [] {
      Text.SplitJoin(ms, ',');
    }
  }

  /** The users a stored mentions field names. */
  function StoredUsers(stored: Option<string>): set<string> {
    set u | u in DecodeMentions(stored)
  }

  /** `save_message`: append one row at the end of the log. */
  function SaveMessage(log: Log, message: string, mentions: seq<string>): (r: Log)
    ensures |r| == |log| + 1
    ensures r[..|log|] == log
    ensures r[|log|] == Row(message, EncodeMentions(mentions))
  {
    log + [Row(message, EncodeMentions(mentions))]
  }

  /** Saving the same message twice gives two rows, not one. */
  lemma {:induction false} SaveTwiceGivesTwoRows(log: Log, message: string, mentions: seq<string>)
    ensures var twice := SaveMessage(SaveMessage(log, message, mentions), message, mentions);
      |twice| == |log| + 2 && twice[|log|] == twice[|log| + 1] && twice[..|log|] == log
  {
    var once := SaveMessage(log, message, mentions);
    var twice := SaveMessage(once, message, mentions);
    assert twice[..|log|] == once[..|log|];
  }

  /** `list_messages`: every row as (message, stored mentions), in insertion order. */
  function ListMessages(log: Log): (rows: seq<(string, Option<string>)>)
    ensures |rows| == |log|
    ensures forall i | 0 <= i < |log| :: rows[i] == (log[i].message, log[i].mentions)
  {
    seq(|log|, i requires 0 <= i < |log| => (log[i].message, log[i].mentions))
  }

  /** `delete_logs`: empty the log and report how many rows were deleted. */
  function DeleteLogs(log: Log): (r: (Log, nat))
    ensures r.0 == [] && r.1 == |log|
  {
    ([], |log|)
  }

  /** `list_messages` after `save_message`: the saved row comes last, after all earlier ones. */
  lemma {:induction false} ListMessagesAfterSave(log: Log, message: string, mentions: seq<string>)
    ensures ListMessages(SaveMessage(log, message, mentions))
      == ListMessages(log) + [(message, EncodeMentions(mentions))]
  {
    var after := SaveMessage(log, message, mentions);
    assert forall i | 0 <= i < |log| :: after[i] == log[i];
  }

  /** After `delete_logs` there are no messages and no users, and the count is the number of messages listed before. */
  lemma {:induction false} DeleteLogsEmpties(log: Log)
    ensures ListMessages(DeleteLogs(log).0) == []
    ensures ListUsers(DeleteLogs(log).0) == {}
    ensures DeleteLogs(log).1 == |ListMessages(log)|
  {
  }

  /**
   * A message without mentions and one with two are listed in the order
   * saved, the first without a mentions field; deleting the logs removes both.
   */
  lemma {:induction false} MessageManagementScenario()
    ensures var log := SaveMessage(SaveMessage([], "Test message", []), "Hello @user1 and @user2", ["@user1", "@user2"]);
      var rows := ListMessages(log);
      && |rows| == 2
      && rows[0] == ("Test message", None)
      && rows[1] == ("Hello @user1 and @user2", Some("@user1,@user2"))
      && DeleteLogs(log) == ([], 2)
  {
    var ms := ["@user1", "@user2"];
    assert ms[1..] == ["@user2"];
    assert Text.Join(ms, ',') == "@user1,@user2";
    var log1 := SaveMessage([], "Test message", []);
    var log := SaveMessage(log1, "Hello @user1 and @user2", ms);
    assert log == [Row("Test message", None), Row("Hello @user1 and @user2", Some("@user1,@user2"))];
  }

  /** Some row of the log names user `u` in its stored mentions. */
  predicate MentionedIn(log: Log, u: string) {
    exists i | 0 <= i < |log| :: Names(log[i], u)
  }

  /** The stored mentions of row `r` name user `u`. */
  predicate Names(r: Row, u: string) {
    u in StoredUsers(r.mentions)
  }

  /**
   * `list_users`: every comma-separated piece of every stored mentions
   * field, as a set.
   */
  function ListUsers(log: Log): (users: set<string>)
    ensures forall u :: u in users <==> MentionedIn(log, u)
    decreases |log|
  {
    if log == [] then {}
    else
      var front := log[..|log| - 1];
      var users := ListUsers(front) + StoredUsers(log[|log| - 1].mentions);
      ListUsersStep(log, front, ListUsers(front), users);
      users
  }

  lemma {:induction false} ListUsersStep(log: Log, front: Log, before: set<string>, users: set<string>)
    requires |log| > 0 && front == log[..|log| - 1]
    requires forall u :: u in before <==> MentionedIn(front, u)
    requires users == before + StoredUsers(log[|log| - 1].mentions)
    ensures forall u :: u in users <==> MentionedIn(log, u)
  {
    forall u
      ensures u in users <==> MentionedIn(log, u)
    {
      MentionedInStep(log, front, u);
    }
  }

  lemma {:induction false} MentionedInStep(log: Log, front: Log, u: string)
    requires |log| > 0 && front == log[..|log| - 1]
    ensures MentionedIn(log, u) <==> MentionedIn(front, u) || Names(log[|log| - 1], u)
  {
    if MentionedIn(front, u) {
      MentionedInFront(log, front, u);
    }
    if MentionedIn(log, u) && !Names(log[|log| - 1], u) {
      MentionedInBack(log, front, u);
    }
    if Names(log[|log| - 1], u) {
      assert MentionedIn(log, u);
    }
  }

  lemma {:induction false} MentionedInFront(log: Log, front: Log, u: string)
    requires |log| > 0 && front == log[..|log| - 1] && MentionedIn(front, u)
    ensures MentionedIn(log, u)
  {
    var i :| 0 <= i < |front| && Names(front[i], u);
    assert front[i] == log[i];
  }

  lemma {:induction false} MentionedInBack(log: Log, front: Log, u: string)
    requires |log| > 0 && front == log[..|log| - 1]
    requires MentionedIn(log, u) && !Names(log[|log| - 1], u)
    ensures MentionedIn(front, u)
  {
    var i :| 0 <= i < |log| && Names(log[i], u);
    assert i < |front|;
    assert front[i] == log[i];
  }

  /**
   * `send_message`, after the HTTP post: on status 204 the message is saved
   * with its mentions; any other status is a failed delivery and the log is
   * left as it was.
   */
  function SendMessage(log: Log, message: string, status: int): (r: Result<Log, SendError>)
    ensures r.Success? <==> status == DeliveredStatus
    ensures r.Failure? ==> r.error == DeliveryFailed(status)
    ensures r.Success? ==> |r.value| == |log| + 1 && r.value[..|log|] == log
    ensures r.Success? ==> r.value[|log|] == Row(message, EncodeMentions(Mentions(message)))
  {
    if status == DeliveredStatus then Success(SaveMessage(log, message, Mentions(message)))
    else Failure(DeliveryFailed(status))
  }

  /** `list_users` after one more row: the users of that row are added. */
  lemma {:induction false} ListUsersAppend(log: Log, row: Row)
    ensures ListUsers(log + [row]) == ListUsers(log) + StoredUsers(row.mentions)
  {
    assert (log + [row])[..|log|] == log;
  }

  /** Saving each (message, mentions) pair in turn. */
  function SaveAll(log: Log, batches: seq<(string, seq<string>)>): (r: Log)
    ensures |r| == |log| + |batches|
    decreases |batches|
  {
    if batches == [] then log
    else SaveAll(SaveMessage(log, batches[0].0, batches[0].1), batches[1..])
  }

  /** Every mention of every saved pair. */
  ghost function AllMentions(batches: seq<(string, seq<string>)>): set<string>
    decreases |batches|
  {
    if batches == [] then {} else (set m | m in batches[0].1) + AllMentions(batches[1..])
  }

  /**
   * When no mention contains a comma, `list_users` returns exactly the
   * mentions that were saved.
   */
  lemma {:induction false} ListUsersAreSavedMentions(log: Log, batches: seq<(string, seq<string>)>)
    requires forall i, m | 0 <= i < |batches| && m in batches[i].1 :: ',' !in m
    ensures ListUsers(SaveAll(log, batches)) == ListUsers(log) + AllMentions(batches)
    decreases |batches|
  {
    if batches != [] {
      var ms := batches[0].1;
      var row := Row(batches[0].0, EncodeMentions(ms));
      assert SaveMessage(log, batches[0].0, ms) == log + [row];
      ListUsersAppend(log, row);
      assert forall m | m in ms :: ',' !in m by {
        assert forall m | m in ms :: m in batches[0].1;
      }
      MentionsRoundTrip(ms);
      assert StoredUsers(row.mentions) == set m | m in ms;
      forall i, m | 0 <= i < |batches[1..]| && m in batches[1..][i].1
        ensures ',' !in m
      {
        assert batches[1..][i] == batches[i + 1];
      }
      ListUsersAreSavedMentions(log + [row], batches[1..]);
    }
  }

  /**
   * A mention with a comma in it is split apart by `list_users`: the stored
   * `@a,b` is read back as the two users `@a` and `b`.
   */
  lemma {:induction false} CommaInMentionSplitsUser()
    ensures ListUsers(SaveMessage([], "hi @a,b", ["@a,b"])) == {"@a", "b"}
  {
    var log := SaveMessage([], "hi @a,b", ["@a,b"]);
    assert Text.Join(["@a,b"], ',') == "@a,b";
    assert Text.IndexOf("@a,b", ',') == Some(2);
    assert "@a,b"[..2] == "@a" && "@a,b"[3..] == "b";
    assert Text.IndexOf("b", ',') == None;
    assert Text.Split("@a,b", ',') == ["@a", "b"];
    ListUsersAppend([], log[0]);
    assert [] + [log[0]] == log;
  }

  lemma {:induction false} ScenarioWords()
    ensures Text.Words("hello @bob and @carol") == ["hello", "@bob", "and", "@carol"]
  {
    var words := ["hello", "@bob", "and", "@carol"];
    assert Text.Join(words, ' ') == "hello @bob and @carol";
    forall w | w in words
      ensures Text.IsWord(w)
    {
    }
    Text.WordsOfJoin(words);
  }

  lemma {:induction false} ScenarioMentions()
    ensures Mentions("hello @bob and @carol") == ["@bob", "@carol"]
  {
    ScenarioWords();
    ScenarioKeep();
  }

  lemma {:induction false} ScenarioKeep()
    ensures KeepMentions(["hello", "@bob", "and", "@carol"]) == ["@bob", "@carol"]
  {
    var words := ["hello", "@bob", "and", "@carol"];
    assert words[1..] == ["@bob", "and", "@carol"];
    assert words[1..][1..] == ["and", "@carol"];
    assert words[1..][1..][1..] == ["@carol"];
    assert KeepMentions(["@carol"]) == ["@carol"];
    assert KeepMentions(["and", "@carol"]) == ["@carol"];
    assert KeepMentions(["@bob", "and", "@carol"]) == ["@bob", "@carol"];
  }

  lemma {:induction false} ScenarioStored()
    ensures DecodeMentions(EncodeMentions(["@bob", "@carol"])) == ["@bob", "@carol"]
    ensures StoredUsers(EncodeMentions(["@bob", "@carol"])) == {"@bob", "@carol"}
  {
    var ms := ["@bob", "@carol"];
    assert ',' !in ms[0] && ',' !in ms[1];
    MentionsRoundTrip(ms);
  }

  /**
   * Sending "hello @bob and @carol" with a successful delivery logs one row
   * mentioning `@bob` and `@carol`, and `list_users` returns those two.
   */
  lemma {:induction false} SendScenario()
    ensures SendMessage([], "hello @bob and @carol", 204).Success?
    ensures var log := SendMessage([], "hello @bob and @carol", 204).value;
      |log| == 1 && DecodeMentions(log[0].mentions) == ["@bob", "@carol"]
      && ListUsers(log) == {"@bob", "@carol"}
  {
    ScenarioMentions();
    ScenarioStored();
    var log := SendMessage([], "hello @bob and @carol", 204).value;
    ListUsersAppend([], log[0]);
    assert [] + [log[0]] == log;
  }
}

=== FILE: release.dfy ===
/**
 * The version arithmetic of the release script: reading the version out of
 * the package's setup file, parsing it into three integers the way Python's
 * `int()` reads them, bumping it, rendering it back, and rewriting every
 * `version="..."` in the setup file.
 */
module Release {
  import opened Common
  import Text

  // ---------------------------------------------------------------------
  // Integers as Python's int() reads them and f"{n}" writes them.
  // ---------------------------------------------------------------------

  predicate IsDigit(c: char) {
    '0' <= c <= '9'
  }

  function DigitValue(c: char): nat
    requires IsDigit(c)
  {
    (c as int) - ('0' as int)
  }

  function DigitChar(d: nat): (c: char)
    requires d < 10
    ensures IsDigit(c) && DigitValue(c) == d
  {
    ('0' as int + d) as char
  }

  /**
   * A decimal literal as `int()` accepts it after the sign: ASCII digits,
   * where a single underscore may separate two digits.
   */
  predicate IsNumeral(s: string) {
    && |s| > 0
    && IsDigit(s[0]) && IsDigit(s[|s| - 1])
    && (forall k | 0 <= k < |s| :: IsDigit(s[k]) || s[k] == '_')
    && (forall k | 0 <= k < |s| - 1 :: s[k] == '_' ==> s[k + 1] != '_')
  }

  /** The digits of a numeral, most significant first, underscores dropped. */
  function DigitsOf(s: string): (ds: string)
    ensures forall c | c in ds :: c in s && c != '_'
    ensures (forall c | c in s :: IsDigit(c)) ==> ds == s
  {
    if s == [] then []
    else
      assert forall c | c in s[1..] :: c in s;
      assert s[0] in s;
      if s[0] == '_' then DigitsOf(s[1..])
      else [s[0]] + DigitsOf(s[1..])
  }

  /** The value of a string of decimal digits. */
  function DigitsValue(ds: string): nat
    requires forall c | c in ds :: IsDigit(c)
    decreases |ds|
  {
    if ds == [] then 0
    else DigitsValue(ds[..|ds| - 1]) * 10 + DigitValue(ds[|ds| - 1])
  }

  /** The decimal digits of `n` without leading zeros. */
  function NatToString(n: nat): (s: string)
    ensures |s| > 0 && forall c | c in s :: IsDigit(c)
    ensures s[0] == '0' <==> n == 0
    ensures n == 0 ==> s == "0"
  {
    if n < 10 then [DigitChar(n)] else NatToString(n / 10) + [DigitChar(n % 10)]
  }

  /** Python's `f"{i}"` for an integer. */
  function RenderInt(i: int): (s: string)
    ensures |s| > 0
    ensures forall c | c in s :: IsDigit(c) || c == '-'
    ensures s[0] == '-' <==> i < 0
    ensures forall k | 0 < k < |s| :: IsDigit(s[k])
    ensures s[0] == '0' ==> i == 0 && s == "0"
    ensures s[0] == '-' ==> |s| > 1 && s[1] != '0'
  {
    if i < 0 then "-" + NatToString(-i)
    else
      var t := NatToString(i);
      assert t[0] in t;
      t
  }

  /**
   * The whitespace `int()` skips around its argument. Every non-ASCII
   * character that `str.isspace` accepts is first turned into a space, and
   * then only ASCII space, tab, line feed, vertical tab, form feed and
   * carriage return are skipped. The ASCII separators U+001C to U+001F,
   * which `str.isspace` also accepts, are not skipped.
   */
  predicate IntSpace(c: char) {
    Text.IsSpace(c) && !('\U{1C}' <= c <= '\U{1F}')
  }

  predicate AllIntSpace(s: string) {
    forall k | 0 <= k < |s| :: IntSpace(s[k])
  }

  function SkipIntSpace(s: string): (t: string)
    ensures |t| <= |s|
    ensures t != [] ==> !IntSpace(t[0])
    ensures s != [] && !IntSpace(s[0]) ==> t == s
  {
    if s != [] && IntSpace(s[0]) then SkipIntSpace(s[1..]) else s
  }

  function DropTrailingIntSpace(s: string): (t: string)
    ensures |t| <= |s| && t == s[..|t|]
    ensures t != [] ==> !IntSpace(t[|t| - 1])
    ensures s != [] && !IntSpace(s[|s| - 1]) ==> t == s
    ensures s != [] && !IntSpace(s[0]) && t != [] ==> !IntSpace(t[0])
  {
    if s != [] && IntSpace(s[|s| - 1]) then DropTrailingIntSpace(s[..|s| - 1]) else s
  }

  /** The argument of `int()` without the whitespace it skips at both ends. */
  function TrimIntSpace(s: string): (t: string)
    ensures |t| <= |s|
    ensures t != [] ==> !IntSpace(t[0]) && !IntSpace(t[|t| - 1])
    ensures (s != [] && !IntSpace(s[0]) && !IntSpace(s[|s| - 1])) ==> t == s
  {
    DropTrailingIntSpace(SkipIntSpace(s))
  }

  /**
   * Trimming removes skippable whitespace at the two ends and nothing else:
   * the result is a slice of the input between an all-whitespace head and tail.
   */
  lemma {:induction false} TrimIntSpaceEnds(s: string) returns (i: nat, j: nat)
    ensures i <= j <= |s| && TrimIntSpace(s) == s[i..j]
    ensures AllIntSpace(s[..i]) && AllIntSpace(s[j..])
  {
    i := SkipIntSpaceIsSuffix(s);
    var u := s[i..];
    var k := DropTrailingIntSpaceIsPrefix(u);
    j := i + k;
    assert u[..k] == s[i..j];
    assert u[k..] == s[j..];
  }

  lemma {:induction false} SkipIntSpaceIsSuffix(s: string) returns (i: nat)
    ensures i <= |s| && SkipIntSpace(s) == s[i..] && AllIntSpace(s[..i])
    decreases |s|
  {
    if s != [] && IntSpace(s[0]) {
      var i' := SkipIntSpaceIsSuffix(s[1..]);
      i := i' + 1;
      assert s[1..][i'..] == s[i..];
      assert forall k | 0 <= k < i :: IntSpace(s[..i][k]) by {
        forall k | 0 <= k < i
          ensures IntSpace(s[..i][k])
        {
          if k > 0 {
            assert s[..i][k] == s[1..][..i'][k - 1];
          }
        }
      }
    } else {
      i := 0;
    }
  }

  lemma {:induction false} DropTrailingIntSpaceIsPrefix(s: string) returns (j: nat)
    ensures j <= |s| && DropTrailingIntSpace(s) == s[..j] && AllIntSpace(s[j..])
    decreases |s|
  {
    if s != [] && IntSpace(s[|s| - 1]) {
      var p := s[..|s| - 1];
      j := DropTrailingIntSpaceIsPrefix(p);
      assert p[..j] == s[..j];
      assert forall k | 0 <= k < |s| - j :: IntSpace(s[j..][k]) by {
        forall k | 0 <= k < |s| - j
          ensures IntSpace(s[j..][k])
        {
          if j + k < |s| - 1 {
            assert s[j..][k] == p[j..][k];
          }
        }
      }
    } else {
      j := |s|;
    }
  }

  /**
   * Python's `int(s)` for a base-10 string: the whitespace of `IntSpace` is
   * skipped at both ends, an optional sign comes first, then a numeral;
   * anything else is the `ValueError` case, here `None`.
   */
  function ParseInt(s: string): (r: Option<int>)
    ensures r.Some? ==> TrimIntSpace(s) != []
    ensures r.Some? && r.value < 0 ==> TrimIntSpace(s)[0] == '-'
  {
    ParseSigned(TrimIntSpace(s))
  }

  /** An optional sign followed by a numeral, with nothing around them. */
  function ParseSigned(t: string): (r: Option<int>)
    ensures r.Some? ==> t != []
    ensures r.Some? && r.value < 0 ==> t[0] == '-'
  {
    if t != [] && (t[0] == '+' || t[0] == '-') then
      var body := t[1..];
      if IsNumeral(body) then
        var n: int := DigitsValue(DigitsOf(body));
        Some(if t[0] == '-' then -n else n)
      else None
    else if IsNumeral(t) then Some(DigitsValue(DigitsOf(t)))
    else None
  }

  /**
   * Padding a field with skippable whitespace does not change what `int()`
   * reads from it.
   */
  lemma {:induction false} ParseIntPadded(pre: string, body: string, post: string)
    requires AllIntSpace(pre) && AllIntSpace(post)
    requires body != [] && !IntSpace(body[0]) && !IntSpace(body[|body| - 1])
    ensures ParseInt(pre + body + post) == ParseSigned(body)
  {
    assert pre + body + post == pre + (body + post);
    SkipIntSpacePrefix(pre, body + post);
    DropIntSpaceSuffix(body, post);
  }

  lemma {:induction false} SkipIntSpacePrefix(pre: string, x: string)
    requires AllIntSpace(pre) && x != [] && !IntSpace(x[0])
    ensures SkipIntSpace(pre + x) == x
    decreases |pre|
  {
    if pre != [] {
      assert (pre + x)[1..] == pre[1..] + x;
      assert AllIntSpace(pre[1..]) by {
        forall k | 0 <= k < |pre[1..]|
          ensures IntSpace(pre[1..][k])
        {
          assert pre[1..][k] == pre[k + 1];
        }
      }
      SkipIntSpacePrefix(pre[1..], x);
    } else {
      assert pre + x == x;
    }
  }

  lemma {:induction false} DropIntSpaceSuffix(y: string, post: string)
    requires AllIntSpace(post) && y != [] && !IntSpace(y[|y| - 1])
    ensures DropTrailingIntSpace(y + post) == y
    decreases |post|
  {
    if post != [] {
      var p := post[..|post| - 1];
      assert (y + post)[..|y + post| - 1] == y + p;
      assert AllIntSpace(p) by {
        forall k | 0 <= k < |p|
          ensures IntSpace(p[k])
        {
          assert p[k] == post[k];
        }
      }
      assert IntSpace((y + post)[|y + post| - 1]) by {
        assert (y + post)[|y + post| - 1] == post[|post| - 1];
      }
      DropIntSpaceSuffix(y, p);
    } else {
      assert y + post == y;
    }
  }

  /** `int("\x1c1")` raises: U+001C is not whitespace to `int()`. */
  lemma {:induction false} IntRejectsSeparator()
    ensures ParseInt("\U{1C}1") == None
  {
    assert TrimIntSpace("\U{1C}1") == "\U{1C}1";
    assert !IsNumeral("\U{1C}1");
  }

  /** Reading the version "1.2.3\x1f" raises, since its last field is not an integer. */
  lemma {:induction false} VersionRejectsSeparator()
    ensures ParseVersion("1.2.3\U{1F}").Failure?
  {
    SplitVersionExample();
    FieldRejectsSeparator();
    ParseVersionNeedsIntFields("1.2.3\U{1F}", 2);
  }

  lemma {:induction false} FieldRejectsSeparator()
    ensures ParseInt("3\U{1F}") == None
  {
    assert TrimIntSpace("3\U{1F}") == "3\U{1F}";
    assert !IsNumeral("3\U{1F}");
  }

  /** One field that is not an integer makes the whole version malformed. */
  lemma {:induction false} ParseVersionNeedsIntFields(s: string, k: nat)
    requires k < |Text.Split(s, '.')| && ParseInt(Text.Split(s, '.')[k]) == None
    ensures ParseVersion(s) == Failure(MalformedVersion)
  {
  }

  lemma {:induction false} SplitVersionExample()
    ensures Text.Split("1.2.3\U{1F}", '.') == ["1", "2", "3\U{1F}"]
  {
    var v, w, x := "1.2.3\U{1F}", "2.3\U{1F}", "3\U{1F}";
    Text.IndexOfAt(v, '.', 1);
    assert v[2..] == w;
    Text.IndexOfAt(w, '.', 1);
    assert w[2..] == x;
    assert x[0] != '.' && x[1] != '.';
    assert '.' !in x;
    Text.IndexOfFirst(x, '.');
    assert Text.Split(x, '.') == [x];
    assert w[..1] == "2";
    assert Text.Split(w, '.') == [w[..1]] + Text.Split(w[2..], '.');
    assert v[..1] == "1";
    assert Text.Split(v, '.') == [v[..1]] + Text.Split(v[2..], '.');
  }

  /** The digits `NatToString` writes read back as the same number. */
  lemma {:induction false} NatToStringValue(n: nat)
    ensures DigitsValue(NatToString(n)) == n
  {
    if n >= 10 {
      var s := NatToString(n);
      assert s[..|s| - 1] == NatToString(n / 10);
      NatToStringValue(n / 10);
    }
  }

  /** What `NatToString` writes is a numeral whose value is `n`. */
  lemma {:induction false} NatToStringIsNumeral(n: nat)
    ensures IsNumeral(NatToString(n))
    ensures DigitsValue(DigitsOf(NatToString(n))) == n
  {
    var ds := NatToString(n);
    assert ds[0] in ds && ds[|ds| - 1] in ds;
    assert forall k | 0 <= k < |ds| :: ds[k] in ds;
    assert DigitsOf(ds) == ds;
    NatToStringValue(n);
  }

  /** A rendered integer has no surrounding whitespace. */
  lemma {:induction false} RenderIntStripped(i: int)
    ensures TrimIntSpace(RenderInt(i)) == RenderInt(i)
  {
    var s := RenderInt(i);
    assert s[0] in s && s[|s| - 1] in s;
    assert !IntSpace(s[0]) && !IntSpace(s[|s| - 1]);
  }

  /** A negative integer is written as a minus sign and its magnitude. */
  lemma {:induction false} ParseSignedNegative(n: nat)
    requires n > 0
    ensures ParseSigned("-" + NatToString(n)) == Some(-(n as int))
  {
    var t := "-" + NatToString(n);
    NatToStringIsNumeral(n);
    assert t[1..] == NatToString(n);
  }

  /** A non-negative integer is written as its digits alone. */
  lemma {:induction false} ParseSignedNatural(n: nat)
    ensures ParseSigned(NatToString(n)) == Some(n)
  {
    var t := NatToString(n);
    NatToStringIsNumeral(n);
    assert t[0] in t;
    assert t[0] != '+' && t[0] != '-';
  }

  /** `int()` reads back what `f"{i}"` writes. */
  lemma {:induction false} ParseRenderInt(i: int)
    ensures ParseInt(RenderInt(i)) == Some(i)
  {
    RenderIntStripped(i);
    ParseSignedRender(i);
  }

  lemma {:induction false} ParseSignedRender(i: int)
    ensures ParseSigned(RenderInt(i)) == Some(i)
  {
    if i < 0 {
      ParseSignedNegative(-i);
    } else {
      ParseSignedNatural(i);
    }
  }

  // ---------------------------------------------------------------------
  // Versions.
  // ---------------------------------------------------------------------

  datatype Version = Version(major: int, minor: int, patch: int)

  datatype BumpKind = Major | Minor | Patch

  /**
   * How `update_version` reads its bump type: "major" and "minor" are
   * recognised, and every other string bumps the patch.
   */
  function KindOf(bumpType: string): (k: BumpKind)
    ensures k == Major <==> bumpType == "major"
    ensures k == Minor <==> bumpType == "minor"
    ensures k == Patch <==> bumpType != "major" && bumpType != "minor"
  {
    if bumpType == "major" then Major
    else if bumpType == "minor" then Minor
    else Patch
  }

  datatype ReleaseError =
    | MalformedVersion  // `int()` or the three-way unpacking raises ValueError
    | NoVersionFound    // setup.py has no `version="..."`

  /** The order of versions: by major, then minor, then patch. */
  predicate VersionLess(a: Version, b: Version) {
    || a.major < b.major
    || (a.major == b.major && a.minor < b.minor)
    || (a.major == b.major && a.minor == b.minor && a.patch < b.patch)
  }

  /**
   * Reading `"M.m.p"`: exactly three dot-separated fields, each an integer
   * as `int()` reads it.
   */
  function ParseVersion(s: string): (r: Result<Version, ReleaseError>)
    ensures r.Failure? ==> r.error == MalformedVersion
    ensures r.Success? <==> FieldsAreInts(Text.Split(s, '.'))
  {
    var fields := Text.Split(s, '.');
    if FieldsAreInts(fields) then
      Success(Version(ParseInt(fields[0]).value, ParseInt(fields[1]).value, ParseInt(fields[2]).value))
    else Failure(MalformedVersion)
  }

  /** Exactly three fields, each an integer. */
  predicate FieldsAreInts(fields: seq<string>) {
    |fields| == 3 && forall i | 0 <= i < 3 :: ParseInt(fields[i]).Some?
  }

  /** Writing a version as `"M.m.p"`. */
  function RenderVersion(v: Version): (s: string)
    ensures s != [] && '"' !in s
  {
    RenderInt(v.major) + "." + RenderInt(v.minor) + "." + RenderInt(v.patch)
  }

  lemma {:induction false} RenderIntHasNoDot(i: int)
    ensures '.' !in RenderInt(i)
  {
  }

  lemma {:induction false} JoinThree(a: string, b: string, c: string)
    ensures Text.Join([a, b, c], '.') == a + "." + b + "." + c
  {
    assert [a, b, c][1..] == [b, c];
    assert [b, c][1..] == [c];
    assert Text.Join([c], '.') == c;
    assert Text.Join([b, c], '.') == b + "." + c;
    assert Text.Join([a, b, c], '.') == a + "." + (b + "." + c);
  }

  /** Reading a rendered version gives the version back. */
  lemma {:induction false} ParseRenderVersion(v: Version)
    ensures ParseVersion(RenderVersion(v)) == Success(v)
  {
    SplitRenderVersion(v);
    ParseRenderInt(v.major);
    ParseRenderInt(v.minor);
    ParseRenderInt(v.patch);
    ParseThreeFields(RenderVersion(v), RenderInt(v.major), RenderInt(v.minor), RenderInt(v.patch));
  }

  lemma {:induction false} ParseThreeFields(s: string, a: string, b: string, c: string)
    requires Text.Split(s, '.') == [a, b, c]
    requires ParseInt(a).Some? && ParseInt(b).Some? && ParseInt(c).Some?
    ensures ParseVersion(s) == Success(Version(ParseInt(a).value, ParseInt(b).value, ParseInt(c).value))
  {
    var fields := [a, b, c];
    assert ParseInt(fields[0]).Some? && ParseInt(fields[1]).Some? && ParseInt(fields[2]).Some?;
    assert FieldsAreInts(fields);
  }

  lemma {:induction false} SplitRenderVersion(v: Version)
    ensures Text.Split(RenderVersion(v), '.') == [RenderInt(v.major), RenderInt(v.minor), RenderInt(v.patch)]
  {
    var fields := [RenderInt(v.major), RenderInt(v.minor), RenderInt(v.patch)];
    RenderIntHasNoDot(v.major);
    RenderIntHasNoDot(v.minor);
    RenderIntHasNoDot(v.patch);
    assert forall p | p in fields :: '.' !in p;
    Text.SplitJoin(fields, '.');
    JoinThree(fields[0], fields[1], fields[2]);
  }

  /** The version after a bump of the given kind. */
  function Bump(v: Version, kind: BumpKind): (r: Version)
    ensures VersionLess(v, r)
    ensures kind == Major ==> r.major == v.major + 1 && r.minor == 0 && r.patch == 0
    ensures kind == Minor ==> r.major == v.major && r.minor == v.minor + 1 && r.patch == 0
    ensures kind == Patch ==> r.major == v.major && r.minor == v.minor && r.patch == v.patch + 1
  {
    match kind
    case Major => Version(v.major + 1, 0, 0)
    case Minor => Version(v.major, v.minor + 1, 0)
    case Patch => Version(v.major, v.minor, v.patch + 1)
  }

  // ---------------------------------------------------------------------
  // The pattern version="[^"]+" over the text of setup.py.
  // ---------------------------------------------------------------------

  /** The literal start of the pattern. */
  const Key: string := "version=\""

  /**
   * The length of the match of `version="[^"]+"` at the very start of `t`,
   * if there is one: the key, one or more characters other than a quote,
   * and the closing quote (the first quote after the key).
   */
  function MatchAt(t: string): (r: Option<nat>)
    ensures r.Some? ==> |Key| + 2 <= r.value <= |t|
    ensures r.Some? ==> t[..|Key|] == Key && t[r.value - 1] == '"'
  {
    if |t| >= |Key| && t[..|Key|] == Key then
      match Text.IndexOf(t[|Key|..], '"')
      case None => None
      case Some(q) => if q > 0 then Some(|Key| + q + 1) else None
    else None
  }

  /**
   * `re.sub(r'version="[^"]+"', 'version="' + rep + '"', t)`: scanning left
   * to right, each match is replaced and the scan resumes after it.
   */
  function Rewrite(t: string, rep: string): (r: string)
    decreases |t|
  {
    if t == [] then []
    else match MatchAt(t)
      case Some(e) => Key + rep + "\"" + Rewrite(t[e..], rep)
      case None => [t[0]] + Rewrite(t[1..], rep)
  }

  /**
   * `re.search(r'version="([^"]+)"', t).group(1)`: the text between the
   * quotes of the leftmost match.
   */
  function FirstVersion(t: string): (r: Option<string>)
    ensures r.Some? ==> r.value != []
    decreases |t|
  {
    if t == [] then None
    else match MatchAt(t)
      case Some(e) => Some(t[|Key|..e - 1])
      case None => FirstVersion(t[1..])
  }

  /** The quoted texts of all matches, in the order `re.sub` visits them. */
  function Versions(t: string): (vs: seq<string>)
    decreases |t|
  {
    if t == [] then []
    else match MatchAt(t)
      case Some(e) => [t[|Key|..e - 1]] + Versions(t[e..])
      case None => Versions(t[1..])
  }

  /**
   * A match is the key, one or more characters other than a quote, and the
   * first quote after the key; where the key is present without a match,
   * either no quote follows it or one follows it at once.
   */
  lemma {:induction false} MatchAtShape(t: string)
    ensures MatchAt(t).Some? ==> '"' !in t[|Key|..MatchAt(t).value - 1]
    ensures MatchAt(t).None? && |t| >= |Key| && t[..|Key|] == Key ==> '"' !in t[|Key|..] || t[|Key|] == '"'
  {
    if |t| >= |Key| && t[..|Key|] == Key {
      var u := t[|Key|..];
      Text.IndexOfFirst(u, '"');
      match Text.IndexOf(u, '"')
      case None =>
      case Some(q) =>
        if q > 0 {
          assert t[|Key|..|Key| + q] == u[..q];
        }
    }
  }

  /** Every version `re.sub` visits is non-empty and free of quotes. */
  lemma {:induction false} VersionsWellFormed(t: string)
    ensures forall v | v in Versions(t) :: v != [] && '"' !in v
    decreases |t|
  {
    if t != [] {
      match MatchAt(t)
      case Some(e) =>
        MatchAtShape(t);
        VersionsAfterMatch(t, e);
        VersionsWellFormed(t[e..]);
      case None =>
        VersionsWellFormed(t[1..]);
    }
  }

  /** The leftmost match `re.search` finds is the first one `re.sub` visits. */
  lemma {:induction false} FirstVersionIsFirst(t: string)
    ensures FirstVersion(t).None? <==> Versions(t) == []
    ensures FirstVersion(t).Some? ==> FirstVersion(t).value == Versions(t)[0]
    decreases |t|
  {
    if t != [] && MatchAt(t).None? {
      FirstVersionIsFirst(t[1..]);
    }
  }

  /**
   * Whether the pattern matches at the start of a text is decided by any
   * prefix of it that ends in a quote after the key.
   */
  lemma {:induction false} MatchAtAgree(x: string, y: string, n: nat)
    requires |Key| < n <= |x| && n <= |y| && x[..n] == y[..n] && x[n - 1] == '"'
    ensures MatchAt(x) == MatchAt(y)
  {
    assert x[..|Key|] == x[..n][..|Key|] && y[..|Key|] == y[..n][..|Key|];
    if x[..|Key|] == Key {
      var xs, ys := x[|Key|..], y[|Key|..];
      assert xs[n - 1 - |Key|] == '"';
      assert xs[n - 1 - |Key|] in xs;
      Text.IndexOfFirst(xs, '"');
      var q := Text.IndexOf(xs, '"').value;
      assert xs[..q + 1] == ys[..q + 1] by {
        assert forall k | 0 <= k <= q :: xs[k] == x[..n][|Key| + k] == y[..n][|Key| + k] == ys[k];
      }
      assert ys[..q] == xs[..q];
      Text.IndexOfAt(ys, '"', q);
    }
  }

  /** The replacement text is itself a match, covering exactly the replacement. */
  lemma {:induction false} MatchAtReplacement(rep: string, w: string)
    requires rep != [] && '"' !in rep
    ensures MatchAt(Key + rep + "\"" + w) == Some(|Key| + |rep| + 1)
  {
    var t := Key + rep + "\"" + w;
    assert t[..|Key|] == Key;
    var u := t[|Key|..];
    assert u[..|rep|] == rep && u[|rep|] == '"';
    Text.IndexOfAt(u, '"', |rep|);
  }

  lemma {:induction false} AfterReplacement(rep: string, w: string)
    ensures (Key + rep + "\"" + w)[|Key| + |rep| + 1..] == w
    ensures (Key + rep + "\"" + w)[|Key|..|Key| + |rep|] == rep
  {
  }

  /**
   * Before its first match a text is copied unchanged by the rewrite, up to
   * and including the quote that ends the key of that match.
   */
  lemma {:induction false} RewriteCopiesPrefix(t: string, rep: string) returns (p: nat)
    requires Versions(t) != []
    ensures p + |Key| <= |t| && p + |Key| <= |Rewrite(t, rep)|
    ensures t[..p + |Key|] == Rewrite(t, rep)[..p + |Key|]
    ensures t[p + |Key| - 1] == '"'
    decreases |t|
  {
    match MatchAt(t)
    case Some(e) =>
      p := 0;
      RewriteStartsWithKey(t, rep, e);
    case None =>
      var p' := RewriteCopiesPrefix(t[1..], rep);
      p := p' + 1;
      CopiedPrefixStep(t, rep, p');
  }

  lemma {:induction false} RewriteStartsWithKey(t: string, rep: string, e: nat)
    requires MatchAt(t) == Some(e)
    ensures |Key| <= |t| && |Key| <= |Rewrite(t, rep)|
    ensures t[..|Key|] == Rewrite(t, rep)[..|Key|] == Key
    ensures t[|Key| - 1] == '"'
  {
    RewriteAtMatch(t, rep, e);
    var head := Key + rep + "\"";
    assert Rewrite(t, rep)[..|Key|] == head[..|Key|] == Key;
    assert t[|Key| - 1] == t[..|Key|][|Key| - 1];
  }

  lemma {:induction false} CopiedPrefixStep(t: string, rep: string, p: nat)
    requires t != [] && MatchAt(t).None?
    requires p + |Key| <= |t[1..]| && p + |Key| <= |Rewrite(t[1..], rep)|
    requires t[1..][..p + |Key|] == Rewrite(t[1..], rep)[..p + |Key|]
    requires t[1..][p + |Key| - 1] == '"'
    ensures p + 1 + |Key| <= |t| && p + 1 + |Key| <= |Rewrite(t, rep)|
    ensures t[..p + 1 + |Key|] == Rewrite(t, rep)[..p + 1 + |Key|]
    ensures t[p + |Key|] == '"'
  {
    RewriteNoMatch(t, rep);
    var r := Rewrite(t[1..], rep);
    assert t[..p + 1 + |Key|] == [t[0]] + t[1..][..p + |Key|];
    assert ([t[0]] + r)[..p + 1 + |Key|] == [t[0]] + r[..p + |Key|];
  }

  lemma {:induction false} NoMatchPreserved(t: string, rep: string)
    requires t != [] && MatchAt(t).None?
    ensures MatchAt([t[0]] + Rewrite(t[1..], rep)).None?
  {
    if Versions(t[1..]) == [] {
      RewriteSameIsIdentity(t[1..], rep);
      assert [t[0]] + t[1..] == t;
    } else {
      NoMatchBeforeVersion(t, rep);
    }
  }

  lemma {:induction false} NoMatchBeforeVersion(t: string, rep: string)
    requires t != [] && MatchAt(t).None? && Versions(t[1..]) != []
    ensures MatchAt([t[0]] + Rewrite(t[1..], rep)).None?
  {
    var u := [t[0]] + Rewrite(t[1..], rep);
    var p := RewriteCopiesPrefix(t[1..], rep);
    assert t[..p + 1 + |Key|] == [t[0]] + t[1..][..p + |Key|];
    MatchAtAgree(t, u, p + 1 + |Key|);
  }

  /**
   * Rewriting a text whose every version already is `rep` changes nothing:
   * the rewrite touches only the matches.
   */
  lemma {:induction false} RewriteSameIsIdentity(t: string, rep: string)
    requires forall v | v in Versions(t) :: v == rep
    ensures Rewrite(t, rep) == t
    decreases |t|
  {
    if t != [] {
      match MatchAt(t)
      case Some(e) =>
        VersionsAfterMatch(t, e);
        assert forall v | v in Versions(t[e..]) :: v in Versions(t);
        assert Versions(t)[0] in Versions(t);
        RewriteSameIsIdentity(t[e..], rep);
        RewriteSameAtMatch(t, rep, e);
      case None =>
        assert Versions(t[1..]) == Versions(t);
        RewriteSameIsIdentity(t[1..], rep);
        assert Rewrite(t, rep) == [t[0]] + t[1..];
    }
  }

  lemma {:induction false} RewriteSameAtMatch(t: string, rep: string, e: nat)
    requires MatchAt(t) == Some(e) && t[|Key|..e - 1] == rep
    requires Rewrite(t[e..], rep) == t[e..]
    ensures Rewrite(t, rep) == t
  {
    RewriteAtMatch(t, rep, e);
    MatchSpells(t, e);
    var head := Key + rep + "\"";
    assert head == t[..e];
    assert Rewrite(t, rep) == head + t[e..];
    assert t == t[..e] + t[e..];
  }

  lemma {:induction false} RewriteNoMatch(t: string, rep: string)
    requires t != [] && MatchAt(t).None?
    ensures Rewrite(t, rep) == [t[0]] + Rewrite(t[1..], rep)
  {
  }

  lemma {:induction false} RewriteAtMatch(t: string, rep: string, e: nat)
    requires MatchAt(t) == Some(e)
    ensures Rewrite(t, rep) == Key + rep + "\"" + Rewrite(t[e..], rep)
  {
    match MatchAt(t)
    case Some(e') =>
      assert e' == e;
  }

  lemma {:induction false} VersionsAfterMatch(t: string, e: nat)
    requires t != [] && MatchAt(t) == Some(e)
    ensures Versions(t) == [t[|Key|..e - 1]] + Versions(t[e..])
  {
    match MatchAt(t)
    case Some(e') =>
      assert e' == e;
  }

  /** A match is the key, its version and the closing quote. */
  lemma {:induction false} MatchSpells(t: string, e: nat)
    requires MatchAt(t) == Some(e)
    ensures t[..e] == Key + t[|Key|..e - 1] + "\""
  {
    assert t[..e] == t[..e - 1] + t[e - 1..e];
    assert t[..e - 1] == t[..|Key|] + t[|Key|..e - 1];
    assert t[e - 1..e] == "\"";
  }

  /** Every match is replaced, and no new match appears. */
  lemma {:induction false} RewriteReplacesEvery(t: string, rep: string)
    requires rep != [] && '"' !in rep
    ensures Versions(Rewrite(t, rep)) == seq(|Versions(t)|, _ => rep)
    decreases |t|
  {
    if t != [] {
      match MatchAt(t)
      case Some(e) =>
        var w := Rewrite(t[e..], rep);
        MatchAtReplacement(rep, w);
        AfterReplacement(rep, w);
        RewriteReplacesEvery(t[e..], rep);
      case None =>
        NoMatchPreserved(t, rep);
        var u := [t[0]] + Rewrite(t[1..], rep);
        assert u[1..] == Rewrite(t[1..], rep);
        RewriteReplacesEvery(t[1..], rep);
    }
  }

  /** A second rewrite with the same version changes nothing. */
  lemma {:induction false} RewriteIdempotent(t: string, rep: string)
    requires rep != [] && '"' !in rep
    ensures Rewrite(Rewrite(t, rep), rep) == Rewrite(t, rep)
  {
    RewriteReplacesEvery(t, rep);
    RewriteSameIsIdentity(Rewrite(t, rep), rep);
  }

  /**
   * The text outside the matches, in scan order: the piece before the first
   * match, the pieces between matches, and the piece after the last one.
   */
  function Gaps(t: string): (gs: seq<string>)
    ensures |gs| == |Versions(t)| + 1
    decreases |t|
  {
    if t == [] then [[]]
    else match MatchAt(t)
      case Some(e) =>
        VersionsAfterMatch(t, e);
        [[]] + Gaps(t[e..])
      case None =>
        var g := Gaps(t[1..]);
        [[t[0]] + g[0]] + g[1..]
  }

  /** Put every version back, key and quotes included, between its gaps. */
  function Weave(gs: seq<string>, vs: seq<string>): string
    requires |gs| == |vs| + 1
    decreases |vs|
  {
    if vs == [] then gs[0]
    else gs[0] + Key + vs[0] + "\"" + Weave(gs[1..], vs[1..])
  }

  /** A text is its gaps with its matches woven back in. */
  lemma {:induction false} WeaveGapsVersions(t: string)
    ensures Weave(Gaps(t), Versions(t)) == t
    decreases |t|
  {
    if t != [] {
      match MatchAt(t)
      case Some(e) =>
        WeaveGapsVersions(t[e..]);
        WeaveStepAtMatch(t, e);
        MatchSpells(t, e);
        assert t == t[..e] + t[e..];
      case None =>
        WeaveGapsVersions(t[1..]);
        WeaveStepNoMatch(t);
    }
  }

  lemma {:induction false} WeaveStepAtMatch(t: string, e: nat)
    requires t != [] && MatchAt(t) == Some(e)
    ensures Weave(Gaps(t), Versions(t)) == Key + t[|Key|..e - 1] + "\"" + Weave(Gaps(t[e..]), Versions(t[e..]))
  {
    GapsAtMatch(t, e);
    VersionsAfterMatch(t, e);
    WeaveAtMatch(Gaps(t[e..]), t[|Key|..e - 1], Versions(t[e..]));
  }

  lemma {:induction false} WeaveStepNoMatch(t: string)
    requires t != [] && MatchAt(t).None?
    requires Weave(Gaps(t[1..]), Versions(t[1..])) == t[1..]
    ensures Weave(Gaps(t), Versions(t)) == t
  {
    GapsNoMatch(t);
    VersionsNoMatch(t);
    WeaveCons(t[0], Gaps(t[1..]), Versions(t[1..]));
    assert t == [t[0]] + t[1..];
  }

  lemma {:induction false} GapsAtMatch(t: string, e: nat)
    requires t != [] && MatchAt(t) == Some(e)
    ensures Gaps(t) == [[]] + Gaps(t[e..])
  {
    match MatchAt(t)
    case Some(e') =>
      assert e' == e;
  }

  lemma {:induction false} GapsNoMatch(t: string)
    requires t != [] && MatchAt(t).None?
    ensures Gaps(t) == [[t[0]] + Gaps(t[1..])[0]] + Gaps(t[1..])[1..]
  {
  }

  lemma {:induction false} VersionsNoMatch(t: string)
    requires t != [] && MatchAt(t).None?
    ensures Versions(t) == Versions(t[1..])
  {
  }

  lemma {:induction false} WeaveAtMatch(gs: seq<string>, v: string, vs: seq<string>)
    requires |gs| == |vs| + 1
    ensures Weave([[]] + gs, [v] + vs) == Key + v + "\"" + Weave(gs, vs)
  {
    assert ([[]] + gs)[1..] == gs;
    assert ([v] + vs)[1..] == vs;
  }

  lemma {:induction false} WeaveCons(c: char, gs: seq<string>, vs: seq<string>)
    requires |gs| == |vs| + 1
    ensures Weave([[c] + gs[0]] + gs[1..], vs) == [c] + Weave(gs, vs)
  {
    var hs := [[c] + gs[0]] + gs[1..];
    if vs != [] {
      assert hs[1..] == gs[1..];
      assert Weave(hs, vs) == ([c] + gs[0]) + Key + vs[0] + "\"" + Weave(gs[1..], vs[1..]);
    }
  }

  /** The rewrite leaves all text outside the matches as it was. */
  lemma {:induction false} RewriteKeepsGaps(t: string, rep: string)
    requires rep != [] && '"' !in rep
    ensures Gaps(Rewrite(t, rep)) == Gaps(t)
    decreases |t|
  {
    if t != [] {
      match MatchAt(t)
      case Some(e) =>
        var w := Rewrite(t[e..], rep);
        RewriteAtMatch(t, rep, e);
        MatchAtReplacement(rep, w);
        AfterReplacement(rep, w);
        GapsAtMatch(Rewrite(t, rep), |Key| + |rep| + 1);
        GapsAtMatch(t, e);
        RewriteKeepsGaps(t[e..], rep);
      case None =>
        RewriteNoMatch(t, rep);
        NoMatchPreserved(t, rep);
        var u := Rewrite(t, rep);
        assert u[0] == t[0] && u[1..] == Rewrite(t[1..], rep);
        GapsNoMatch(u);
        GapsNoMatch(t);
        RewriteKeepsGaps(t[1..], rep);
    }
  }

  /**
   * The rewrite in full: the old gaps, with the replacement woven in at every
   * match.
   */
  lemma {:induction false} RewriteIsWeave(t: string, rep: string)
    requires rep != [] && '"' !in rep
    ensures Rewrite(t, rep) == Weave(Gaps(t), seq(|Versions(t)|, _ => rep))
  {
    RewriteKeepsGaps(t, rep);
    RewriteReplacesEvery(t, rep);
    WeaveGapsVersions(Rewrite(t, rep));
  }

  /** `get_current_version`: the version in the first `version="..."` of setup.py. */
  function CurrentVersion(setup: string): (r: Result<string, ReleaseError>)
    ensures r.Failure? <==> Versions(setup) == []
    ensures r.Failure? ==> r.error == NoVersionFound
    ensures r.Success? ==> r.value == Versions(setup)[0]
  {
    FirstVersionIsFirst(setup);
    match FirstVersion(setup)
    case None => Failure(NoVersionFound)
    case Some(v) => Success(v)
  }

  /**
   * `update_version`: bump the current version and rewrite every version of
   * setup.py to it; the result is the new version and the new setup.py text.
   */
  function UpdateVersion(current: string, bumpType: string, setup: string): (r: Result<(string, string), ReleaseError>)
    ensures r.Failure? <==> ParseVersion(current).Failure?
    ensures r.Failure? ==> r.error == MalformedVersion
    ensures r.Success? ==> ParseVersion(r.value.0) == Success(Bump(ParseVersion(current).value, KindOf(bumpType)))
    ensures r.Success? ==> Versions(r.value.1) == seq(|Versions(setup)|, _ => r.value.0)
    ensures r.Success? ==> Gaps(r.value.1) == Gaps(setup)
    ensures r.Success? ==> r.value.0 == RenderVersion(Bump(ParseVersion(current).value, KindOf(bumpType)))
  {
    match ParseVersion(current)
    case Failure(e) => Failure(e)
    case Success(v) =>
      var next := RenderVersion(Bump(v, KindOf(bumpType)));
      ParseRenderVersion(Bump(v, KindOf(bumpType)));
      RewriteReplacesEvery(setup, next);
      RewriteKeepsGaps(setup, next);
      Success((next, Rewrite(setup, next)))
  }

  /**
   * After an update, reading the current version from the new setup.py gives
   * the new version when the old one had a version, and an update of a
   * setup.py without a version leaves it as it was.
   */
  lemma {:induction false} UpdateThenRead(current: string, bumpType: string, setup: string)
    ensures UpdateVersion(current, bumpType, setup).Success? && CurrentVersion(setup).Success? ==>
      CurrentVersion(UpdateVersion(current, bumpType, setup).value.1) == Success(UpdateVersion(current, bumpType, setup).value.0)
    ensures UpdateVersion(current, bumpType, setup).Success? && CurrentVersion(setup).Failure? ==>
      UpdateVersion(current, bumpType, setup).value.1 == setup
  {
    if ParseVersion(current).Success? && CurrentVersion(setup).Failure? {
      var next := RenderVersion(Bump(ParseVersion(current).value, KindOf(bumpType)));
      RewriteSameIsIdentity(setup, next);
    }
  }

  /** A minor bump of 1.2.3 is written 1.3.0. */
  lemma {:induction false} MinorBumpExample()
    ensures RenderVersion(Bump(Version(1, 2, 3), Minor)) == "1.3.0"
  {
    assert RenderInt(1) == "1" && RenderInt(3) == "3" && RenderInt(0) == "0";
  }
}

=== FILE: text.dfy ===
/**
 * The string functions of Python that the command-line tool relies on:
 * `str.split()` (runs of whitespace), `str.split(sep)` and `sep.join(...)`,
 * and the code-point order on strings.
 */
module Text {
  import opened Common

  /** Python's whitespace test for one character (`str.isspace`). */
  predicate IsSpace(c: char) {
    || c == ' ' || c == '\t' || c == '\n' || c == '\U{B}' || c == '\U{C}' || c == '\r'
    || c == '\U{1C}' || c == '\U{1D}' || c == '\U{1E}' || c == '\U{1F}'
    || c == '\U{85}' || c == '\U{A0}' || c == '\U{1680}'
    || ('\U{2000}' <= c <= '\U{200A}')
    || c == '\U{2028}' || c == '\U{2029}' || c == '\U{202F}' || c == '\U{205F}' || c == '\U{3000}'
  }

  /** A token of `str.split()`: non-empty and free of whitespace. */
  predicate IsWord(w: string) {
    |w| > 0 && forall k | 0 <= k < |w| :: !IsSpace(w[k])
  }

  /** The suffix of `s` left after its leading whitespace. */
  function SkipSpace(s: string): (t: string)
    ensures |t| <= |s|
    ensures t != [] ==> !IsSpace(t[0])
  {
    if s != [] && IsSpace(s[0]) then SkipSpace(s[1..]) else s
  }

  /** The length of the longest whitespace-free prefix of `s`. */
  function WordEnd(s: string): (i: nat)
    ensures i <= |s|
    ensures i < |s| ==> IsSpace(s[i])
  {
    if s == [] || IsSpace(s[0]) then 0 else 1 + WordEnd(s[1..])
  }

  /** The prefix `WordEnd` measures is free of whitespace. */
  lemma {:induction false} WordEndNoSpace(s: string)
    ensures forall k | 0 <= k < WordEnd(s) :: !IsSpace(s[k])
  {
    if s != [] && !IsSpace(s[0]) {
      WordEndNoSpace(s[1..]);
      forall k | 0 <= k < WordEnd(s)
        ensures !IsSpace(s[k])
      {
        if k > 0 {
          assert s[k] == s[1..][k - 1];
        }
      }
    }
  }

  /** Python's `s.split()`: the maximal whitespace-free runs of `s`, in order. */
  function Words(s: string): (ws: seq<string>)
    ensures |ws| <= |s|
    decreases |s|
  {
    var t := SkipSpace(s);
    if t == [] then []
    else
      var i := WordEnd(t);
      [t[..i]] + Words(t[i..])
  }

  /** Every token of `s.split()` is non-empty and free of whitespace. */
  lemma {:induction false} WordsAreWords(s: string)
    ensures forall w | w in Words(s) :: IsWord(w)
    decreases |s|
  {
    var t := SkipSpace(s);
    if t != [] {
      var i := WordEnd(t);
      WordsBySkip(s, t);
      WordsStep(t);
      FirstWordIsWord(t);
      WordsAreWords(t[i..]);
    }
  }

  lemma {:induction false} FirstWordIsWord(t: string)
    requires t != [] && !IsSpace(t[0])
    ensures IsWord(t[..WordEnd(t)])
  {
    var i := WordEnd(t);
    WordEndNoSpace(t);
    assert forall k | 0 <= k < |t[..i]| :: t[..i][k] == t[k];
  }

  /** The characters of `s` that are not whitespace, in order. */
  function DropSpace(s: string): string {
    if s == [] then []
    else if IsSpace(s[0]) then DropSpace(s[1..])
    else [s[0]] + DropSpace(s[1..])
  }

  /** The concatenation of a sequence of strings. */
  function Concat(ws: seq<string>): string {
    if ws == [] then [] else ws[0] + Concat(ws[1..])
  }

  /** `DropSpace` distributes over concatenation. */
  lemma {:induction false} DropSpaceAppend(a: string, b: string)
    ensures DropSpace(a + b) == DropSpace(a) + DropSpace(b)
  {
    if a == [] {
      assert a + b == b;
    } else {
      assert (a + b)[0] == a[0];
      assert (a + b)[1..] == a[1..] + b;
      DropSpaceAppend(a[1..], b);
      if IsSpace(a[0]) {
        assert DropSpace(a + b) == DropSpace(a[1..] + b);
      } else {
        assert DropSpace(a + b) == [a[0]] + DropSpace(a[1..] + b);
      }
    }
  }

  lemma {:induction false} DropSpaceOfWord(s: string)
    requires forall k | 0 <= k < |s| :: !IsSpace(s[k])
    ensures DropSpace(s) == s
  {
    if s != [] {
      DropSpaceOfWord(s[1..]);
    }
  }

  /**
   * The tokens of `s.split()` are `s` verbatim with its whitespace removed:
   * no character is lost, added or reordered.
   */
  lemma {:induction false} WordsKeepText(s: string)
    ensures Concat(Words(s)) == DropSpace(s)
    decreases |s|, 1
  {
    var t := SkipSpace(s);
    DropSpaceOfSkipped(s);
    WordsBySkip(s, t);
    if t != [] {
      WordsKeepTextAtWord(t);
    }
  }

  lemma {:induction false} WordsKeepTextAtWord(t: string)
    requires t != [] && !IsSpace(t[0])
    ensures Concat(Words(t)) == DropSpace(t)
    decreases |t|, 0
  {
    var i := WordEnd(t);
    WordsStep(t);
    assert t == t[..i] + t[i..];
    DropSpaceAppend(t[..i], t[i..]);
    WordEndNoSpace(t);
    assert forall k | 0 <= k < |t[..i]| :: t[..i][k] == t[k];
    DropSpaceOfWord(t[..i]);
    WordsKeepText(t[i..]);
  }

  /** Leading whitespace contributes nothing to `DropSpace`. */
  lemma {:induction false} DropSpaceOfSkipped(s: string)
    ensures DropSpace(s) == DropSpace(SkipSpace(s))
  {
    if s != [] && IsSpace(s[0]) {
      DropSpaceOfSkipped(s[1..]);
    }
  }

  lemma {:induction false} SkipSpaceAppendNonEmpty(a: string, b: string)
    requires SkipSpace(a) != []
    ensures SkipSpace(a + b) == SkipSpace(a) + b
  {
    assert a != [];
    assert (a + b)[0] == a[0];
    if IsSpace(a[0]) {
      assert (a + b)[1..] == a[1..] + b;
      SkipSpaceAppendNonEmpty(a[1..], b);
    }
  }

  lemma {:induction false} SkipSpaceOfSpaces(a: string, b: string)
    requires forall k | 0 <= k < |a| :: IsSpace(a[k])
    ensures SkipSpace(a + b) == SkipSpace(b)
  {
    if a == [] {
      assert a + b == b;
    } else {
      assert (a + b)[0] == a[0];
      assert (a + b)[1..] == a[1..] + b;
      SkipSpaceOfSpaces(a[1..], b);
      assert SkipSpace(a + b) == SkipSpace(a[1..] + b);
    }
  }

  lemma {:induction false} WordEndSpaceAppend(t: string, c: char, b: string)
    requires IsSpace(c)
    ensures WordEnd(t + [c] + b) == WordEnd(t)
  {
    if t != [] && !IsSpace(t[0]) {
      assert (t + [c] + b)[1..] == t[1..] + [c] + b;
      WordEndSpaceAppend(t[1..], c, b);
    }
  }

  lemma {:induction false} SliceSpaceAppend(t: string, c: char, b: string, i: nat)
    requires i <= |t|
    ensures (t + [c] + b)[..i] == t[..i]
    ensures (t + [c] + b)[i..] == t[i..] + [c] + b
  {
  }

  lemma {:induction false} ConsAssoc(wa: seq<string>, w: string, r1: seq<string>, r2: seq<string>, wb: seq<string>)
    requires wa == [w] + r1 && r2 == r1 + wb
    ensures [w] + r2 == wa + wb
  {
  }

  predicate AllSpace(s: string) {
    forall k | 0 <= k < |s| :: IsSpace(s[k])
  }

  lemma {:induction false} WordsBySkip(x: string, y: string)
    requires SkipSpace(x) == SkipSpace(y)
    ensures Words(x) == Words(y)
  {
  }

  lemma {:induction false} WordsStep(t: string)
    requires t != [] && !IsSpace(t[0])
    ensures 0 < WordEnd(t)
    ensures Words(t) == [t[..WordEnd(t)]] + Words(t[WordEnd(t)..])
  {
    assert SkipSpace(t) == t;
  }

  lemma {:induction false} WordsOfSpaces(a: string)
    requires AllSpace(a)
    ensures Words(a) == []
  {
    SkipSpaceOfAllSpace(a);
  }

  lemma {:induction false} SkipSpaceOfAllSpace(a: string)
    requires AllSpace(a)
    ensures SkipSpace(a) == []
  {
    if a != [] {
      assert AllSpace(a[1..]) by {
        assert forall k | 0 <= k < |a[1..]| :: a[1..][k] == a[k + 1];
      }
      SkipSpaceOfAllSpace(a[1..]);
    }
  }

  /**
   * A whitespace character separates tokens: splitting `a + c + b` yields the
   * tokens of `a` followed by the tokens of `b`.
   */
  lemma {:induction false} WordsSeparate(a: string, c: char, b: string)
    requires IsSpace(c)
    ensures Words(a + [c] + b) == Words(a) + Words(b)
    decreases |a|, 1
  {
    if AllSpace(a) {
      assert AllSpace(a + [c]);
      assert a + [c] + b == (a + [c]) + b;
      SkipSpaceOfSpaces(a + [c], b);
      WordsBySkip(a + [c] + b, b);
      WordsOfSpaces(a);
    } else {
      WordsSeparateAfterWord(a, c, b);
    }
  }

  lemma {:induction false} WordsSeparateAfterWord(a: string, c: char, b: string)
    requires IsSpace(c) && !AllSpace(a)
    ensures Words(a + [c] + b) == Words(a) + Words(b)
    decreases |a|, 0
  {
    var ta := SkipSpace(a);
    var i := WordEnd(ta);
    WordsFirstWord(a, c, b);
    WordsSeparate(ta[i..], c, b);
    ConsAssoc(Words(a), ta[..i], Words(ta[i..]), Words(ta[i..] + [c] + b), Words(b));
  }

  lemma {:induction false} SkipSpaceNonEmpty(a: string)
    requires !AllSpace(a)
    ensures SkipSpace(a) != []
  {
    if IsSpace(a[0]) {
      assert !AllSpace(a[1..]) by {
        var k :| 0 <= k < |a| && !IsSpace(a[k]);
        assert a[1..][k - 1] == a[k];
      }
      SkipSpaceNonEmpty(a[1..]);
    }
  }

  /** When `a` holds a token, it is also the first token of `a + c + b`. */
  lemma {:induction false} WordsFirstWord(a: string, c: char, b: string)
    requires IsSpace(c) && !AllSpace(a)
    ensures var ta := SkipSpace(a); var i := WordEnd(ta);
      && 0 < i <= |ta| <= |a|
      && Words(a + [c] + b) == [ta[..i]] + Words(ta[i..] + [c] + b)
      && Words(a) == [ta[..i]] + Words(ta[i..])
  {
    var ta := SkipSpace(a);
    SkipSpaceNonEmpty(a);
    WordsStep(ta);
    WordsBySkip(a, ta);
    WordsFirstWordJoined(a, c, b);
  }

  lemma {:induction false} WordsFirstWordJoined(a: string, c: char, b: string)
    requires IsSpace(c) && SkipSpace(a) != []
    ensures var ta := SkipSpace(a); var i := WordEnd(ta);
      Words(a + [c] + b) == [ta[..i]] + Words(ta[i..] + [c] + b)
  {
    var ta := SkipSpace(a);
    var i := WordEnd(ta);
    assert a + [c] + b == a + ([c] + b);
    SkipSpaceAppendNonEmpty(a, [c] + b);
    var y := ta + [c] + b;
    WordsBySkip(a + [c] + b, y);
    WordsStep(y);
    WordEndSpaceAppend(ta, c, b);
    SliceSpaceAppend(ta, c, b, i);
  }

  lemma {:induction false} WordsOfWord(w: string)
    requires IsWord(w)
    ensures Words(w) == [w]
  {
    assert SkipSpace(w) == w;
    WordsStep(w);
    assert WordEnd(w) == |w|;
    assert w[|w|..] == [];
    assert w[..|w|] == w;
  }

  lemma {:induction false} WordsAfterWord(w: string, rest: string)
    requires IsWord(w)
    ensures Words(w + [' '] + rest) == [w] + Words(rest)
  {
    WordsSeparate(w, ' ', rest);
    WordsOfWord(w);
  }

  lemma {:induction false} WordsOfJoinStep(ws: seq<string>)
    requires |ws| >= 2 && IsWord(ws[0])
    requires Words(Join(ws[1..], ' ')) == ws[1..]
    ensures Words(Join(ws, ' ')) == ws
  {
    assert Join(ws, ' ') == ws[0] + [' '] + Join(ws[1..], ' ');
    WordsAfterWord(ws[0], Join(ws[1..], ' '));
    assert ws == [ws[0]] + ws[1..];
  }

  /** Joining whitespace-free tokens with single spaces and splitting again gives them back. */
  lemma {:induction false} WordsOfJoin(ws: seq<string>)
    requires forall w | w in ws :: IsWord(w)
    ensures Words(Join(ws, ' ')) == ws
  {
    if ws == [] {
    } else if |ws| == 1 {
      assert ws[0] in ws;
      WordsOfWord(ws[0]);
    } else {
      assert ws[0] in ws;
      WordsOfJoin(ws[1..]);
      WordsOfJoinStep(ws);
    }
  }

  /** The index of the first occurrence of `c` in `s`, if any. */
  function IndexOf(s: string, c: char): (r: Option<nat>)
    ensures r.Some? ==> r.value < |s| && s[r.value] == c
  {
    if s == [] then None
    else if s[0] == c then Some(0)
    else match IndexOf(s[1..], c)
      case None => None
      case Some(i) => Some(i + 1)
  }

  /** `IndexOf` finds nothing exactly when `c` is absent, and otherwise its first occurrence. */
  lemma {:induction false} IndexOfFirst(s: string, c: char)
    ensures IndexOf(s, c).None? <==> c !in s
    ensures IndexOf(s, c).Some? ==> c !in s[..IndexOf(s, c).value]
  {
    if s != [] && s[0] != c {
      IndexOfFirst(s[1..], c);
      assert s == [s[0]] + s[1..];
      match IndexOf(s[1..], c)
      case None =>
      case Some(i) =>
        assert s[..i + 1] == [s[0]] + s[1..][..i];
    }
  }

  lemma {:induction false} IndexOfAt(s: string, c: char, k: nat)
    requires k < |s| && s[k] == c && c !in s[..k]
    ensures IndexOf(s, c) == Some(k)
  {
    if k > 0 {
      assert s[0] in s[..k];
      assert s[1..][k - 1] == c;
      assert s[1..][..k - 1] == s[..k][1..];
      assert c !in s[..k][1..];
      IndexOfAt(s[1..], c, k - 1);
    }
  }

  /** Python's `s.split(sep)` for a one-character separator. */
  function Split(s: string, sep: char): (parts: seq<string>)
    ensures |parts| >= 1
    decreases |s|
  {
    match IndexOf(s, sep)
    case None => [s]
    case Some(i) => [s[..i]] + Split(s[i + 1..], sep)
  }

  /** No piece of a split contains the separator. */
  lemma {:induction false} SplitNoSep(s: string, sep: char)
    ensures forall p | p in Split(s, sep) :: sep !in p
    decreases |s|
  {
    IndexOfFirst(s, sep);
    match IndexOf(s, sep)
    case None =>
    case Some(i) =>
      SplitNoSep(s[i + 1..], sep);
  }

  /** Python's `sep.join(parts)` for a one-character separator. */
  function Join(parts: seq<string>, sep: char): (s: string)
    ensures parts != [] ==> |parts[0]| <= |s| && s[..|parts[0]|] == parts[0]
    ensures |parts| > 1 ==> |parts[0]| < |s| && s[|parts[0]|] == sep
    decreases |parts|
  {
    if parts == [] then ""
    else if |parts| == 1 then parts[0]
    else parts[0] + [sep] + Join(parts[1..], sep)
  }

  /** Joining the pieces of a split restores the original string. */
  lemma {:induction false} JoinSplit(s: string, sep: char)
    ensures Join(Split(s, sep), sep) == s
    decreases |s|
  {
    match IndexOf(s, sep)
    case None =>
    case Some(i) =>
      var rest := Split(s[i + 1..], sep);
      JoinSplit(s[i + 1..], sep);
      assert Split(s, sep) == [s[..i]] + rest;
      assert s == s[..i] + [sep] + s[i + 1..];
  }

  /**
   * Splitting a join gives the pieces back, provided there is at least one
   * piece and no piece contains the separator.
   */
  lemma {:induction false} SplitJoin(parts: seq<string>, sep: char)
    requires |parts| >= 1
    requires forall p | p in parts :: sep !in p
    ensures Split(Join(parts, sep), sep) == parts
    decreases |parts|
  {
    if |parts| > 1 {
      var p := parts[0];
      var s := Join(parts, sep);
      assert s == p + [sep] + Join(parts[1..], sep);
      assert s[|p|] == sep;
      assert s[..|p|] == p;
      IndexOfAt(s, sep, |p|);
      assert s[|p| + 1..] == Join(parts[1..], sep);
      SplitJoin(parts[1..], sep);
    } else {
      assert parts[0] in parts;
      IndexOfFirst(parts[0], sep);
    }
  }

  /** The code-point (lexicographic) order on strings: `a` sorts no later than `b`. */
  predicate LessEq(a: string, b: string) {
    a == [] || (b != [] && (a[0] < b[0] || (a[0] == b[0] && LessEq(a[1..], b[1..]))))
  }

  lemma {:induction false} LessEqReflexive(a: string)
    ensures LessEq(a, a)
  {
    if a != [] {
      LessEqReflexive(a[1..]);
    }
  }

  lemma {:induction false} LessEqTotal(a: string, b: string)
    ensures LessEq(a, b) || LessEq(b, a)
  {
    if a != [] && b != [] && a[0] == b[0] {
      LessEqTotal(a[1..], b[1..]);
    }
  }

  lemma {:induction false} LessEqAntisymmetric(a: string, b: string)
    requires LessEq(a, b) && LessEq(b, a)
    ensures a == b
  {
    if a != [] && b != [] {
      LessEqAntisymmetric(a[1..], b[1..]);
      assert a == [a[0]] + a[1..];
      assert b == [b[0]] + b[1..];
    }
  }

  lemma {:induction false} LessEqTransitive(a: string, b: string, c: string)
    requires LessEq(a, b) && LessEq(b, c)
    ensures LessEq(a, c)
  {
    if a != [] && b != [] && c != [] && a[0] == b[0] && b[0] == c[0] {
      LessEqTransitive(a[1..], b[1..], c[1..]);
    }
  }

  predicate IsLeast(m: string, s: set<string>) {
    m in s && forall n | n in s :: LessEq(m, n)
  }

  lemma {:induction false} LeastExists(s: set<string>)
    requires s != {}
    ensures exists m :: IsLeast(m, s)
    decreases |s|
  {
    var x :| x in s;
    if s != {x} {
      var rest := s - {x};
      LeastExists(rest);
      var m :| IsLeast(m, rest);
      LessEqTotal(x, m);
      if LessEq(x, m) {
        forall n | n in s
          ensures LessEq(x, n)
        {
          if n == x {
            LessEqReflexive(x);
          } else {
            LessEqTransitive(x, m, n);
          }
        }
        assert IsLeast(x, s);
      } else {
        assert LessEq(m, x);
        assert IsLeast(m, s);
      }
    } else {
      LessEqReflexive(x);
      assert IsLeast(x, s);
    }
  }

  lemma {:induction false} LeastUnique(s: set<string>)
    ensures forall a, b | IsLeast(a, s) && IsLeast(b, s) :: a == b
  {
    forall a, b | IsLeast(a, s) && IsLeast(b, s)
      ensures a == b
    {
      LessEqAntisymmetric(a, b);
    }
  }

  /** The first element of a non-empty set of strings in code-point order. */
  function Least(s: set<string>): (m: string)
    requires s != {}
    ensures m in s
    ensures forall n | n in s :: LessEq(m, n)
  {
    LeastExists(s);
    LeastUnique(s);
    var m :| IsLeast(m, s);
    m
  }
}
